=== FILE: README.md ===
# Attachment-to-text pipeline of the welfare-service preprocessor

This project models the core of `preprocess.py` and proves properties of that model. The core turns every scraped welfare-service record and its attached files into one text field, `rag_full_text`, for a retrieval index. It also models the text sanitiser `clean_text` of `check_rag.py`.

The modules are:

- `PyStr` (pystr.dfy): the parts of Python's `str` the pipeline relies on.
  - `isspace` whitespace.
  - `lstrip`, `rstrip`, `strip`.
  - ASCII `lower`.
- `PyPath` (pypath.dfy): `os.path.basename` and the extension half of `os.path.splitext`.
  - Each is defined as a right-to-left scan.
  - Each is proved equal to the library's own formulation, a slice after the last separator or from the last dot.
- `Router` (router.dfy): the content-addressed extraction router.
  - `calculate_file_hash`, `process_file_router`, the extension dispatch and `process_zip_recursive`.
  - The global `CONTENT_CACHE` is passed in and returned explicitly. Its type is `map<Digest, string>`.
  - The hash, the three text backends and archive unpacking are uninterpreted fields of an `Env`. They are functions of the file bytes.
  - The file system is a `map<Path, Bytes>`.
  - The source recurses into nested archives without a bound, so the model takes a `fuel` count of archive levels. `None` means only "the fuel ran out".
  - Every route also returns a log of the extractor invocations it made. This lets "no extractor runs" be stated as a fact about the model.
- `RouterProps` (router_props.dfy): properties of the router.
  - cache hits;
  - misses and unhashable files;
  - dispatch;
  - archive text layout;
  - the cache only grows;
  - fuel is only a bound;
  - over a route, no leaf backend runs twice on content with the same digest.
- `Aggregate` (aggregate.dfy): `main`'s per-record loop.
  - It routes each path in `files`.
  - It builds one block per attachment whose text is not blank.
  - It fills the fixed template and stores its `.strip()` under `rag_full_text`.
  - It threads one cache through all records.
  - The router is passed in as a function value. `RouterOf(env, fs, fuel)` is the modelled router.
- `AggregateProps` (aggregate_props.dfy): properties of the whole run.
  - The cache grows.
  - Leaf extractions are unique across all records.
  - Every record keeps its fields and gains `rag_full_text`.
  - The stored text has an exact layout.
  - Missing files lead to the fallback line.
  - Attachment blocks appear in the order of `files`.
- `CleanText` (clean_text.dfy): `clean_text`.
  - The regular expression deletion and the two `replace` calls, written as the source composes them.
  - It is proved equal to an independent per-character description.

Points about the code that the model follows closely:

- **Cache writes.** After every miss, `process_file_router` assigns `CONTENT_CACHE[file_hash] = extracted_text` whenever the digest is truthy (preprocess.py:176-177). The empty string is stored too.
  - The model makes the same unconditional write.
  - `RouteFile` states that after a miss with a digest, the entry is exactly the returned text.
  - `RouteFileExtends` proves that entries present before a call are left unchanged.
- **Missing paths.** A path that does not exist yields `""` and leaves the cache alone (preprocess.py:136-137, `RoutePath`).
- **Blank attachments.** An attachment whose text is blank contributes nothing (preprocess.py:211).
  - No marker is written for it.
  - The single fallback line `첨부파일 내용 없음` is written only when no attachment has text (preprocess.py:236). See `BlocksSkip` and `StoredText`.
- **`clean_text` is not applied.** It lives in `check_rag.py`, and `preprocess.py` never calls it. It is modelled on its own.

## Model

| member | source | states |
|---|---|---|
| PyStr.Strip | preprocess.py:237 | `strip` leaves nothing exactly when the string is all whitespace; otherwise the result neither starts nor ends with whitespace; the result is a slice of the input with only whitespace before and after it |
| PyStr.BlankSpec | preprocess.py:211 | `not text.strip()` holds exactly when every character is whitespace |
| PyStr.BlankAppend | preprocess.py:211 | a concatenation is blank exactly when both parts are |
| PyStr.TrimLeftDropsBlank | preprocess.py:237 | what `lstrip` removes is whitespace only |
| PyStr.TrimRightDropsBlank | preprocess.py:237 | what `rstrip` removes is whitespace only |
| PyStr.TrimRightAppend | preprocess.py:237 | `rstrip` reaches only into the last part of a concatenation when that part is not blank |
| PyStr.StripFrame | preprocess.py:217-237 | stripping a text framed by whitespace removes the frame and the trailing whitespace of the middle, nothing else |
| PyStr.LowerSpec | preprocess.py:151 | lower-casing turns each ASCII capital into its small letter (32 code points on), leaves no capital and changes no other character |
| PyPath.BasenameSpec | preprocess.py:212 | the basename is the suffix after the last `/`: it has no `/`, and a `/` or the start of the path precedes it |
| PyPath.BasenameIsAfterLastSep | preprocess.py:212 | the right-to-left scan equals the slice after the last separator |
| PyPath.NameExtIsRef | preprocess.py:151 | the scan equals `splitext`'s slice from the last dot when a non-dot precedes that dot, else the empty extension |
| PyPath.ExtSpec | preprocess.py:151 | a non-empty extension is a suffix of the path that starts with its only dot and holds no `/` |
| PyPath.ExtOfJoin | preprocess.py:118-124 | a member reached as `dir/name` has basename `name` and the extension of `name` |
| Router.RouteFile | preprocess.py:139-179 | a hit returns the cached text, with the cache unchanged and no extractor run; after a miss with a digest, the cache maps it to exactly the returned text, even `""`; a non-archive miss adds that one entry and nothing else; an unsupported extension yields `""` with no extractor; without a digest, a non-archive leaves the cache as it was |
| Router.Extract | preprocess.py:150-173 | a non-archive never touches the cache; an unsupported kind yields `""` and runs nothing |
| Router.RoutePath | preprocess.py:136-137 | a path that does not exist yields `""`, leaves the cache unchanged and runs nothing |
| RouterProps.LeafDispatch | preprocess.py:160-170 | on a miss, `.hwp`/`.hwpx`, `.pdf` and image files each go to their own backend exactly once, and the route returns its text |
| RouterProps.UnhashableIsNotCached | preprocess.py:175-177 | when hashing fails, the route returns exactly what the bare extraction returns, and adds no entry of its own |
| RouterProps.BadArchiveIsCached | preprocess.py:111-115 | an archive that cannot be opened yields the fixed ZIP error marker, and exactly that marker is cached under its digest; without a digest the cache is unchanged |
| RouterProps.ArchiveText | preprocess.py:104-132 | an archive that unpacks yields the labelled concatenation of its members' texts; the walker is logged before every member extraction; the cache is the one the walk left, plus the archive's own entry |
| RouterProps.UnpackErrorIsEmpty | preprocess.py:129-132 | an archive whose unpacking raises any other exception yields `""`, runs only the walker, and `""` is cached under its digest; without a digest the cache is unchanged |
| RouterProps.CaseBlindDispatch | preprocess.py:151-170 | extensions differing only in the case of ASCII letters (`.ZIP` and `.zip`) dispatch to the same kind and route the same bytes identically |
| RouterProps.SameExtensionSameRoute | preprocess.py:151 | two paths whose extensions agree up to ASCII case route the same bytes identically |
| RouterProps.RouteAgain | preprocess.py:141-148 | routing content again under any name, after it was routed once with a digest, returns the same text, changes nothing and runs no extractor |
| RouterProps.TwinFiles | preprocess.py:136-148 | the second of two byte-identical attachments is a cache hit |
| RouterProps.LabelledAppend | preprocess.py:118-127 | archive text composes along the member order |
| RouterProps.LabelledAt | preprocess.py:126-127 | each member with non-empty text contributes `\n[압축내용: name]\n` + text + `\n` at its own position in walk order |
| RouterProps.LabelledSkip | preprocess.py:126 | a member with empty text contributes nothing |
| RouterProps.WalkSnoc | preprocess.py:118-124 | walking one more member appends exactly that member's route log, made under the cache the earlier members left, and leaves the cache that route leaves: a walk's log is its members' route logs in walk order |
| RouterProps.WalkAt | preprocess.py:118-124 | member i's text is what routing member i returns under the cache the members walked before it left |
| RouterProps.WalkAllCached | preprocess.py:118-127 | walking members whose digests are all cached returns the cached texts, changes nothing and runs nothing |
| RouterProps.RouteFileExtends | preprocess.py:175-177 | a route never removes or rewrites an entry that was cached when it began |
| RouterProps.WalkExtends | preprocess.py:118-124 | the same for walking an archive's members |
| RouterProps.RouteFileFuel | preprocess.py:122-124 | more fuel than a route needs changes nothing: fuel is only a bound |
| RouterProps.ExtractFuel | preprocess.py:155-158 | the same for one extraction |
| RouterProps.WalkFuel | preprocess.py:118-124 | the same for a walk |
| RouterProps.RouteFileLeafOnce | preprocess.py:141-177 | within one route, including nested archives, no leaf backend runs twice on content with the same digest, none runs on a digest cached at the start, and each digest it ran on is cached at the end |
| RouterProps.WalkLeafOnce | preprocess.py:118-127 | the same for walking an archive's members |
| RouterProps.RoutePathLeafOnce | preprocess.py:134-179 | the same for a route by path |
| Aggregate.RouteAll | preprocess.py:209-210 | one attachment per listed path, in the same order, each carrying its own path |
| Aggregate.Stamped | preprocess.py:240 | the record gains `rag_full_text` = text; its files, and every other field's presence and value, stay as they were |
| Aggregate.ProcessRecord | preprocess.py:198-240 | a processed record differs from the input only by its stored text |
| Aggregate.ProcessAll | preprocess.py:198-240 | one output record per input record |
| Aggregate.AttachmentText | preprocess.py:205-213 | the `+=` loop builds exactly the in-order blocks of the non-blank attachments |
| Aggregate.BlocksAppend | preprocess.py:209-213 | the blocks of two lists of files are the blocks of each, in order |
| Aggregate.BlocksEmpty | preprocess.py:211 | there is no block exactly when every attachment's text is blank |
| Aggregate.BlocksEnd | preprocess.py:213 | non-empty blocks end with `=` and a line break |
| Aggregate.BlocksAt | preprocess.py:209-213 | an attachment with non-blank text has its block, named by its basename, between the blocks of the files listed before and after it |
| Aggregate.BlocksSkip | preprocess.py:211 | an attachment with blank text contributes nothing |
| Aggregate.RagTextLayout | preprocess.py:217-237 | for a non-blank section, `.strip()` removes the opening line break and the trailing indentation: the header followed by the section without its trailing whitespace |
| Aggregate.RagTextOfSection | preprocess.py:217-237 | the stored text is the header followed by the fallback line when there are no blocks, and otherwise the blocks without their final line break |
| Aggregate.NoTextFallback | preprocess.py:236 | when every attachment is blank, the stored text ends in `첨부파일 내용 없음` |
| AggregateProps.RouteAllExtends | preprocess.py:209-210 | routing a record's files only adds cache entries |
| AggregateProps.RouteAllLeafOnce | preprocess.py:209-210 | within a record, no leaf backend runs twice on the same digest, even for the same content under several names |
| AggregateProps.ProcessAllExtends | preprocess.py:198-213 | across all records the cache only grows |
| AggregateProps.ProcessAllLeafOnce | preprocess.py:198-213 | over a whole run, each leaf backend runs at most once per digest, only on digests not cached at the start, and every digest it ran on is cached at the end |
| AggregateProps.RouteAllSnoc | preprocess.py:209-210 | routing one more path appends exactly that path's route log, made under the cache the earlier paths left, and leaves that route's cache: a record's log is its files' route logs in order |
| AggregateProps.ProcessAllSnoc | preprocess.py:198-213 | processing one more record appends exactly that record's log, made under the cache the earlier records left, and leaves its cache: a run's log is its records' logs in order |
| AggregateProps.RouteAllAt | preprocess.py:209-210 | attachment i carries what routing `files[i]` returns under the cache the earlier files left |
| AggregateProps.ProcessAllAt | preprocess.py:198-240 | output record i is what processing input record i gives under the cache the earlier records left |
| AggregateProps.RunStoredText | preprocess.py:198-240 | record i of a run stores the template over its own files' attachments, routed under the cache the earlier records left |
| AggregateProps.ProcessAllStamps | preprocess.py:198-240 | every output record is the input record at the same place, changed only by its stored `rag_full_text` |
| AggregateProps.RouteAllMissing | preprocess.py:136-137 | paths that do not exist give empty texts, leave the cache unchanged and run nothing |
| AggregateProps.MissingFilesFallback | preprocess.py:208-236 | a record none of whose files exists, an empty list included, gets the header and the fallback line, with the cache unchanged and nothing run |
| AggregateProps.StoredText | preprocess.py:205-237 | a record's stored text is the header filled from its own fields, then either the fallback line or its attachment blocks without the final line break |
| AggregateProps.AttachmentInOrder | preprocess.py:209-213 | each attachment with non-blank text appears as its own block, named by its basename, between the blocks of the files before and after it in `files` |
| CleanText.RemoveControls | check_rag.py:12 | the result is no longer than the input and holds no deleted control; a character occurs in it exactly when it occurs in the input and is not deleted |
| CleanText.Clean | check_rag.py:10-13 | empty input gives `""`; the output is never longer than the input and holds no deleted control and no U+2028 or U+2029 |
| CleanText.CleanIsCharwise | check_rag.py:12-13 | the regex-then-replace composition equals the per-character description: controls vanish, separators become `\n`, everything else stays in order |
| CleanText.CleanIdempotent | check_rag.py:10-13 | cleaning twice is cleaning once |
| CleanText.CleanLength | check_rag.py:12-13 | the output is shorter than the input by exactly the number of deleted controls |
| CleanText.CleanCounts | check_rag.py:12-13 | deleted controls and separators never occur in the output; any other character except `\n` occurs as often as in the input; `\n` occurs once per input `\n`, U+2028 or U+2029 |
| CleanText.TabNewlineReturnSurvive | check_rag.py:12 | every tab and carriage return survives, and no line feed is lost |

## Left out

- Reading files, hashing bytes with real SHA-256 and its chunked reads, and the backends are not modelled. The backends are `hwp5txt` through a subprocess, PyMuPDF and easyocr, at preprocess.py:39-102. They are uninterpreted functions of the bytes in `Env`, and a failed read is a hash of `None`.
- `tempfile`, `zipfile.extractall` and the order `os.walk` visits files are not modelled. Unpacking is an uninterpreted function returning the members in walk order, a `BadArchive` for `BadZipFile`/`RuntimeError`, or an `UnpackError` for any other exception, which the outer handler turns into `""` (`UnpackErrorIsEmpty`).
- Nested archives are opened at most `fuel` levels deep. Routing that would go deeper yields `None`. The fuel lemmas show extra fuel never changes a result.
  - In the source, very deep nesting ends in CPython's `RecursionError`, a subclass of `RuntimeError`.
  - The nearest enclosing handler catches it. That may be the bare `except` of the hash at preprocess.py:48 (the digest becomes `None`), a backend's own handler at preprocess.py:80, 92 or 101, or the router's and walker's handlers at preprocess.py:114, 129 or 172. That outcome is not modelled.
- Exceptions raised by a backend inside the dispatch `try` are not modelled. Each backend is total and returns a string, since the extractors catch their own errors.
- All `print` logging is not modelled. This includes the `is_inside_zip` flag, which only suppresses log lines.
- JSON loading and saving, and the early return when the input file is missing, are not modelled.
- Record fields are modelled as strings only. A non-string JSON value would be formatted by the f-string and is not modelled. A record without a `files` key is a record with an empty `files` list.
- `service_id` is read only for a log line and is not modelled.
- `Lower` covers ASCII letters only. Two non-ASCII characters lower-case to something holding an ASCII letter. U+212A KELVIN SIGN becomes `k`, and no dispatched extension has a `k`. U+0130 becomes `i` plus a combining dot, which matches no extension. So the branch taken is the same.
- `Router.Walk` states only that it returns one text per member. `WalkAt` states what each text is: the route of that member under the cache the earlier members left. `WalkSnoc` states what its log and cache are: its members' route logs in walk order, and the cache the last route left. `ArchiveText` and `LabelledAt` state how those texts make up the archive's text.
- `Aggregate.RouteAll` states only the count, order and paths of the attachments. `RouteAllAt` states what each attachment's text is, and `RouteAllSnoc` what its log and cache are.
- `Aggregate.ProcessAll` states only the record count. Other lemmas state the rest:
  - `ProcessAllStamps`: each output record changes only by its stored text.
  - `ProcessAllAt` and `RunStoredText`: what record i stores, under the cache the earlier records left. `StoredText` then gives the exact layout.
  - `ProcessAllSnoc`: the run's log is its records' logs in order. `ProcessRecordText` makes a record's log its files' log.
  - `ProcessAllExtends` and `ProcessAllLeafOnce`: the cache and extraction facts.
- `test_hwp_extraction` in check_rag.py runs a subprocess and prints, and is not modelled. crawl.py and build_rag.py are not part of this model.

=== FILE: aggregate.dfy ===
/** The per-service aggregation of `main` in preprocess.py: route every attachment path
    of a service record, collect the non-blank texts into labelled blocks, and store the
    `.strip()` of one fixed template as the record's `rag_full_text`. The cache is threaded
    through all attachments of all records in order. */
module Aggregate {
  import opened PyStr
  import opened PyPath
  import opened Router

  /** The string-valued fields of one service record of the scraped JSON. */
  type Fields = map<string, string>

  /** A service record: its fields and its `files` list of attachment paths. */
  datatype Record = Record(fields: Fields, files: seq<Path>)

  /** One entry of `files` together with the text routing it produced. */
  datatype Attachment = Attachment(path: Path, text: string)

  const RagKey: string := "rag_full_text"
  const Missing: string := "내용 없음"
  const NoAttachmentText: string := "첨부파일 내용 없음"
  const BlockRule: string := "=========================="
  /** The closing line of an attachment block. */
  const BlockEnd: string := BlockRule + "\n"

  /** The pieces of an f-string joined in order. */
  function Concat(parts: seq<string>): string {
    if parts == [] then [] else parts[0] + Concat(parts[1..])
  }

  /** `item.get(key, default)` */
  function Get(fields: Fields, key: string, default: string): string {
    if key in fields then fields[key] else default
  }

  /** The block one attachment with non-blank text contributes; `name` is the basename of
      its path. */
  function Block(name: string, text: string): string {
    Concat(["\n\n=== [첨부파일: ", name, "] ===\n", text, "\n"]) + BlockEnd
  }

  /** What one attachment contributes: nothing when `text and text.strip()` is false. */
  function Fragment(a: Attachment): string {
    if IsBlank(a.text) then [] else Block(Basename(a.path), a.text)
  }

  /** `all_attachment_text`: the fragments of the attachments in the order of `files`. */
  function Blocks(atts: seq<Attachment>): string {
    if atts == [] then [] else Fragment(atts[0]) + Blocks(atts[1..])
  }

  /** The attachment section of the template: the blocks, or the fallback when there are
      none. */
  function Section(atts: seq<Attachment>): string {
    var b := Blocks(atts);
    if b != [] then b else NoAttachmentText
  }

  /** One interpolated field of the template: the text before it, the key it reads, and
      the default `get` falls back to when the record lacks that key. */
  datatype Slot = Slot(before: string, key: string, default: string)

  /** The template's field lines in order: the basic information, then the descriptive
      sections, three of which read `내용 없음` when missing. */
  const Slots: seq<Slot> := [
    Slot("[기본 정보]\n서비스명: ", "service_name", ""),
    Slot("\n소관부처: ", "department", ""),
    Slot("\n서비스요약: ", "summary", ""),
    Slot("\n\n[지원 대상]\n", "지원대상", Missing),
    Slot("\n\n[서비스 상세 내용]\n", "서비스 내용", Missing),
    Slot("\n\n[신청 방법]\n", "신청방법", Missing),
    Slot("\n\n[추가 정보]\n", "추가정보", "")]

  /** The heading the attachment section follows. */
  const SectionHeading: string := "\n\n[첨부파일 상세 내용]\n"

  /** The slots filled in from a record's fields. */
  function Fill(fields: Fields, slots: seq<Slot>): string {
    if slots == [] then []
    else slots[0].before + (Get(fields, slots[0].key, slots[0].default) + Fill(fields, slots[1..]))
  }

  /** The template from its first heading up to and including the line before the
      attachment section. */
  function Header(fields: Fields): string {
    Fill(fields, Slots) + SectionHeading
  }

  /** The whitespace after the section: the closing line of the triple-quoted f-string is
      indented by eight spaces. */
  const Trailer: string := "\n        "

  /** The f-string before `.strip()`: it opens with a line break. */
  function Template(fields: Fields, section: string): string {
    "\n" + (Header(fields) + (section + Trailer))
  }

  /** `rag_text` */
  function RagText(fields: Fields, section: string): string {
    Strip(Template(fields, section))
  }

  /** `process_file_router` as the aggregation sees it: a path and the cache before the
      call, to the text, the cache after it and the extractors it invoked. */
  type RouteFn = (Path, Cache) -> Option<Routed>

  /** The router over a file system and backends, opening archives `fuel` levels deep. */
  function RouterOf(env: Env, fs: FileSystem, fuel: nat): RouteFn {
    (p: Path, c: Cache) => RoutePath(env, fs, p, c, fuel)
  }

  /** The routed attachments of a list of paths, the cache they leave, and the extractors
      they invoked. */
  datatype Collected = Collected(atts: seq<Attachment>, cache: Cache, log: seq<Extraction>)

  /** The `for filepath in file_paths` loop: route each path in turn. */
  function RouteAll(route: RouteFn, paths: seq<Path>, cache: Cache): (r: Option<Collected>)
    ensures r.Some? ==> |r.value.atts| == |paths|
    ensures r.Some? ==> forall i :: 0 <= i < |paths| ==> r.value.atts[i].path == paths[i]
    decreases |paths|
  {
    if paths == [] then Some(Collected([], cache, []))
    else
      match route(paths[0], cache)
      case None => None
      case Some(x) =>
        match RouteAll(route, paths[1..], x.cache)
        case None => None
        case Some(rest) =>
          Some(Collected([Attachment(paths[0], x.text)] + rest.atts, rest.cache, x.log + rest.log))
  }

  /** One processed record with the cache and invocations after it. */
  datatype Processed = Processed(record: Record, cache: Cache, log: seq<Extraction>)

  /** `out` is `rec` changed only by a text stored under `rag_full_text`: the same files,
      the key present, and every other field present exactly when it was, with the same
      value. */
  ghost predicate Stamps(rec: Record, out: Record) {
    && out.files == rec.files
    && RagKey in out.fields
    && forall k :: k != RagKey ==>
         (k in out.fields <==> k in rec.fields) && (k in rec.fields ==> out.fields[k] == rec.fields[k])
  }

  /** `rec` with `rag_full_text` set to `text` (`item['rag_full_text'] = rag_text`). */
  function Stamped(rec: Record, text: string): (r: Record)
    ensures Stamps(rec, r) && r.fields[RagKey] == text
  {
    rec.(fields := rec.fields[RagKey := text])
  }

  /** One iteration of the loop over `data_list`: route the record's files and store the
      aggregated text under `rag_full_text`. */
  function ProcessRecord(route: RouteFn, rec: Record, cache: Cache): (r: Option<Processed>)
    ensures r.Some? ==> Stamps(rec, r.value.record)
  {
    match RouteAll(route, rec.files, cache)
    case None => None
    case Some(c) => Some(Processed(Stamped(rec, RagText(rec.fields, Section(c.atts))), c.cache, c.log))
  }

  /** The processed records, the final cache and every extractor invocation of the run. */
  datatype Run = Run(records: seq<Record>, cache: Cache, log: seq<Extraction>)

  /** `main`'s loop over all records, sharing one cache. */
  function ProcessAll(route: RouteFn, recs: seq<Record>, cache: Cache): (r: Option<Run>)
    ensures r.Some? ==> |r.value.records| == |recs|
    decreases |recs|
  {
    if recs == [] then Some(Run([], cache, []))
    else
      match ProcessRecord(route, recs[0], cache)
      case None => None
      case Some(p) =>
        match ProcessAll(route, recs[1..], p.cache)
        case None => None
        case Some(rest) =>
          Some(Run([p.record] + rest.records, rest.cache, p.log + rest.log))
  }

  /** The accumulation loop as the source writes it, one `+=` per attachment whose text is
      not blank. */
  method AttachmentText(atts: seq<Attachment>) returns (acc: string)
    ensures acc == Blocks(atts)
  {
    acc := [];
    var i := 0;
    while i < |atts|
      invariant 0 <= i <= |atts|
      invariant acc == Blocks(atts[..i])
    {
      var a := atts[i];
      BlocksSnoc(atts, i);
      if !IsBlank(a.text) {
        acc := acc + Block(Basename(a.path), a.text);
      } else {
        assert acc + Fragment(a) == acc;
      }
      i := i + 1;
    }
    assert atts[..i] == atts;
  }

  // ---------------------------------------------------------------------------
  // Blocks

  /** Blocks compose along the list of files. */
  lemma {:induction false} BlocksAppend(xs: seq<Attachment>, ys: seq<Attachment>)
    ensures Blocks(xs + ys) == Blocks(xs) + Blocks(ys)
    decreases |xs|
  {
    if xs == [] {
      assert xs + ys == ys;
    } else {
      assert (xs + ys)[0] == xs[0];
      assert (xs + ys)[1..] == xs[1..] + ys;
      BlocksAppend(xs[1..], ys);
    }
  }

  /** There are no blocks exactly when every text is blank (empty included). */
  lemma {:induction false} BlocksEmpty(atts: seq<Attachment>)
    ensures Blocks(atts) == [] <==> forall i :: 0 <= i < |atts| ==> IsBlank(atts[i].text)
    decreases |atts|
  {
    if atts != [] {
      BlocksEmpty(atts[1..]);
      assert forall i :: 0 < i < |atts| ==> atts[i] == atts[1..][i - 1];
    }
  }

  /** Non-empty blocks end with the closing rule and a line break. */
  lemma {:induction false} BlocksEnd(atts: seq<Attachment>)
    requires Blocks(atts) != []
    ensures |Blocks(atts)| >= 2
    ensures Blocks(atts)[|Blocks(atts)| - 1] == '\n'
    ensures Blocks(atts)[|Blocks(atts)| - 2] == '='
    decreases |atts|
  {
    if Blocks(atts[1..]) != [] {
      BlocksEnd(atts[1..]);
    }
  }

  /** Adding one more file to the list adds its fragment at the end. */
  lemma BlocksSnoc(atts: seq<Attachment>, i: nat)
    requires i < |atts|
    ensures Blocks(atts[..i + 1]) == Blocks(atts[..i]) + Fragment(atts[i])
  {
    var a := atts[i];
    assert atts[..i + 1] == atts[..i] + [a];
    BlocksAppend(atts[..i], [a]);
    assert [a][1..] == [];
    assert Fragment(a) + [] == Fragment(a);
  }

  /** Each attachment with non-blank text has its block at its own position: after the
      blocks of the files listed before it, before those listed after it. */
  lemma BlocksAt(atts: seq<Attachment>, i: nat)
    requires i < |atts| && !IsBlank(atts[i].text)
    ensures Blocks(atts) ==
            Blocks(atts[..i]) + (Block(Basename(atts[i].path), atts[i].text) + Blocks(atts[i + 1..]))
  {
    var pre, rest := atts[..i], atts[i..];
    assert Blocks(atts) == Blocks(pre) + Blocks(rest) by {
      assert atts == pre + rest;
      BlocksAppend(pre, rest);
    }
    assert Blocks(rest) == Block(Basename(atts[i].path), atts[i].text) + Blocks(atts[i + 1..]) by {
      assert rest[0] == atts[i] && rest[1..] == atts[i + 1..];
    }
  }

  /** An attachment whose text is blank contributes nothing: the blocks around it meet. */
  lemma BlocksSkip(atts: seq<Attachment>, i: nat)
    requires i < |atts| && IsBlank(atts[i].text)
    ensures Blocks(atts) == Blocks(atts[..i]) + Blocks(atts[i + 1..])
  {
    var pre, rest := atts[..i], atts[i..];
    assert Blocks(atts) == Blocks(pre) + Blocks(rest) by {
      assert atts == pre + rest;
      BlocksAppend(pre, rest);
    }
    assert Blocks(rest) == Blocks(atts[i + 1..]) by {
      assert rest[0] == atts[i] && rest[1..] == atts[i + 1..];
      assert Fragment(rest[0]) == [];
    }
  }

  // ---------------------------------------------------------------------------
  // The stored text

  /** `.strip()` removes exactly the opening line break and the whitespace after the
      section: the stored text is the header followed by the section with its trailing
      whitespace removed. */
  lemma RagTextLayout(fields: Fields, section: string)
    requires !IsBlank(section)
    ensures RagText(fields, section) == Header(fields) + TrimRight(section)
  {
    HeaderStart(fields);
    FrameBlank();
    StripFrame("\n", Header(fields), section, Trailer);
  }

  /** The template's opening line break and closing indentation are whitespace. */
  lemma FrameBlank()
    ensures IsBlank("\n") && IsBlank(Trailer)
  {
  }

  /** The stored text starts at the first heading. */
  lemma HeaderStart(fields: Fields)
    ensures |Header(fields)| > 0 && Header(fields)[0] == '['
  {
    assert Slots[0].before[0] == '[';
  }

  /** The stored text of a record: the header, then either the fallback line or the blocks
      without their final line break. */
  lemma RagTextOfSection(fields: Fields, atts: seq<Attachment>)
    ensures Blocks(atts) == [] ==>
              RagText(fields, Section(atts)) == Header(fields) + NoAttachmentText
    ensures Blocks(atts) != [] ==>
              RagText(fields, Section(atts)) == Header(fields) + Blocks(atts)[..|Blocks(atts)| - 1]
  {
    var b := Blocks(atts);
    if b == [] {
      FallbackShape();
      RagTextLayout(fields, NoAttachmentText);
    } else {
      BlocksEnd(atts);
      TrimRightLastSpace(b);
      RagTextLayout(fields, b);
    }
  }

  /** The fallback line is not blank and has no whitespace to lose. */
  lemma FallbackShape()
    ensures !IsBlank(NoAttachmentText) && TrimRight(NoAttachmentText) == NoAttachmentText
  {
    TrimRightNonSpace(NoAttachmentText);
  }

  /** A record whose listed files all carry blank or no text gets the fallback line. */
  lemma NoTextFallback(fields: Fields, atts: seq<Attachment>)
    requires forall i :: 0 <= i < |atts| ==> IsBlank(atts[i].text)
    ensures RagText(fields, Section(atts)) == Header(fields) + NoAttachmentText
  {
    BlocksEmpty(atts);
    RagTextOfSection(fields, atts);
  }
}

=== FILE: aggregate_props.dfy ===
/** Properties of the aggregation: the cache only grows across records, no backend runs
    twice on content of the same digest in a whole run, a record whose attachments are all
    missing gets the fallback line, and the stored text is the header followed by the
    attachment blocks in the order of `files`. */
module AggregateProps {
  import opened PyStr
  import opened PyPath
  import opened Router
  import opened RouterProps
  import opened Aggregate

  // ---------------------------------------------------------------------------
  // The cache across attachments and records

  /** Routing a record's files only adds cache entries. */
  lemma {:induction false} RouteAllExtends(env: Env, fs: FileSystem, fuel: nat, paths: seq<Path>, cache: Cache)
    requires RouteAll(RouterOf(env, fs, fuel), paths, cache).Some?
    ensures Extends(cache, RouteAll(RouterOf(env, fs, fuel), paths, cache).value.cache)
    decreases |paths|
  {
    if paths != [] {
      RoutePathExtends(env, fs, paths[0], cache, fuel);
      var x := RoutePath(env, fs, paths[0], cache, fuel).value;
      RouteAllExtends(env, fs, fuel, paths[1..], x.cache);
    }
  }

  /** Within one record's files no backend runs twice on content of the same digest, even
      when the same content is attached under several names. */
  lemma {:induction false} RouteAllLeafOnce(env: Env, fs: FileSystem, fuel: nat, paths: seq<Path>, cache: Cache)
    requires RouteAll(RouterOf(env, fs, fuel), paths, cache).Some?
    ensures LeafOnce(env, cache, RouteAll(RouterOf(env, fs, fuel), paths, cache).value.cache,
                     RouteAll(RouterOf(env, fs, fuel), paths, cache).value.log)
    decreases |paths|
  {
    if paths != [] {
      RoutePathLeafOnce(env, fs, paths[0], cache, fuel);
      RoutePathExtends(env, fs, paths[0], cache, fuel);
      var x := RoutePath(env, fs, paths[0], cache, fuel).value;
      RouteAllLeafOnce(env, fs, fuel, paths[1..], x.cache);
      RouteAllExtends(env, fs, fuel, paths[1..], x.cache);
      var rest := RouteAll(RouterOf(env, fs, fuel), paths[1..], x.cache).value;
      LeafOnceCompose(env, cache, x.cache, rest.cache, x.log, rest.log);
    }
  }

  /** Processing the records in order only adds cache entries. */
  lemma {:induction false} ProcessAllExtends(env: Env, fs: FileSystem, fuel: nat, recs: seq<Record>, cache: Cache)
    requires ProcessAll(RouterOf(env, fs, fuel), recs, cache).Some?
    ensures Extends(cache, ProcessAll(RouterOf(env, fs, fuel), recs, cache).value.cache)
    decreases |recs|
  {
    if recs != [] {
      RouteAllExtends(env, fs, fuel, recs[0].files, cache);
      var p := ProcessRecord(RouterOf(env, fs, fuel), recs[0], cache).value;
      ProcessAllExtends(env, fs, fuel, recs[1..], p.cache);
    }
  }

  /** The cache is shared by all records: over a whole run, each backend runs at most once
      per digest, only on digests not cached at the start, and every digest it ran on is
      cached at the end. */
  lemma {:induction false} ProcessAllLeafOnce(env: Env, fs: FileSystem, fuel: nat, recs: seq<Record>, cache: Cache)
    requires ProcessAll(RouterOf(env, fs, fuel), recs, cache).Some?
    ensures LeafOnce(env, cache, ProcessAll(RouterOf(env, fs, fuel), recs, cache).value.cache,
                     ProcessAll(RouterOf(env, fs, fuel), recs, cache).value.log)
    decreases |recs|
  {
    if recs != [] {
      RouteAllLeafOnce(env, fs, fuel, recs[0].files, cache);
      RouteAllExtends(env, fs, fuel, recs[0].files, cache);
      var p := ProcessRecord(RouterOf(env, fs, fuel), recs[0], cache).value;
      ProcessAllLeafOnce(env, fs, fuel, recs[1..], p.cache);
      ProcessAllExtends(env, fs, fuel, recs[1..], p.cache);
      var rest := ProcessAll(RouterOf(env, fs, fuel), recs[1..], p.cache).value;
      LeafOnceCompose(env, cache, p.cache, rest.cache, p.log, rest.log);
    }
  }

  // ---------------------------------------------------------------------------
  // Each path and each record under the cache the earlier ones left

  /** Attachment `i` carries what routing `paths[i]` returns under the cache the paths
      before it left. */
  lemma {:induction false} RouteAllAt(route: RouteFn, paths: seq<Path>, cache: Cache, i: nat)
    requires RouteAll(route, paths, cache).Some? && i < |paths|
    ensures RouteAll(route, paths[..i], cache).Some?
    ensures route(paths[i], RouteAll(route, paths[..i], cache).value.cache).Some?
    ensures RouteAll(route, paths, cache).value.atts[i].text
            == route(paths[i], RouteAll(route, paths[..i], cache).value.cache).value.text
    decreases i
  {
    var first := route(paths[0], cache).value;
    if i == 0 {
      assert paths[..0] == [];
    } else {
      RouteAllAt(route, paths[1..], first.cache, i - 1);
      assert paths[..i][0] == paths[0] && paths[..i][1..] == paths[1..][..i - 1];
      assert paths[1..][i - 1] == paths[i];
      var rest := RouteAll(route, paths[1..], first.cache).value;
      assert RouteAll(route, paths, cache).value.atts == [Attachment(paths[0], first.text)] + rest.atts;
    }
  }

  /** Routing one more path appends exactly that path's route, under the cache the paths
      before it left, to the record's extractions, and leaves the cache that route leaves:
      the record's log is its paths' route logs in the order of `files`. */
  lemma {:induction false} RouteAllSnoc(route: RouteFn, paths: seq<Path>, cache: Cache, i: nat)
    requires RouteAll(route, paths, cache).Some? && i < |paths|
    ensures RouteAll(route, paths[..i], cache).Some?
    ensures route(paths[i], RouteAll(route, paths[..i], cache).value.cache).Some?
    ensures RouteAll(route, paths[..i + 1], cache).Some?
    ensures RouteAll(route, paths[..i + 1], cache).value.log
            == RouteAll(route, paths[..i], cache).value.log
               + route(paths[i], RouteAll(route, paths[..i], cache).value.cache).value.log
    ensures RouteAll(route, paths[..i + 1], cache).value.cache
            == route(paths[i], RouteAll(route, paths[..i], cache).value.cache).value.cache
    decreases i
  {
    var first := route(paths[0], cache).value;
    if i == 0 {
      assert paths[..0] == [];
      assert paths[..1][0] == paths[0] && paths[..1][1..] == [];
      assert first.log + [] == first.log;
    } else {
      var tail := paths[1..];
      RouteAllSnoc(route, tail, first.cache, i - 1);
      assert tail[i - 1] == paths[i];
      assert paths[..i][0] == paths[0] && paths[..i][1..] == tail[..i - 1];
      assert paths[..i + 1][0] == paths[0] && paths[..i + 1][1..] == tail[..i];
      var a := RouteAll(route, tail[..i - 1], first.cache).value;
      var b := route(paths[i], a.cache).value;
      assert first.log + (a.log + b.log) == (first.log + a.log) + b.log;
    }
  }

  /** The loop over `data_list` for an arbitrary per-record step: the same fold as
      `ProcessAll`, stated so that facts about the loop itself need not unfold a record's
      processing. */
  function RunWith(step: (Record, Cache) -> Option<Processed>, recs: seq<Record>, cache: Cache): (r: Option<Run>)
    ensures r.Some? ==> |r.value.records| == |recs|
    decreases |recs|
  {
    if recs == [] then Some(Run([], cache, []))
    else
      match step(recs[0], cache)
      case None => None
      case Some(p) =>
        match RunWith(step, recs[1..], p.cache)
        case None => None
        case Some(rest) => Some(Run([p.record] + rest.records, rest.cache, p.log + rest.log))
  }

  /** Processing one record. */
  function RecordStepOf(route: RouteFn): (Record, Cache) -> Option<Processed> {
    (rec: Record, c: Cache) => ProcessRecord(route, rec, c)
  }

  lemma {:induction false} ProcessAllIsRunWith(route: RouteFn, recs: seq<Record>, cache: Cache)
    ensures ProcessAll(route, recs, cache) == RunWith(RecordStepOf(route), recs, cache)
    decreases |recs|
  {
    if recs != [] {
      var p := ProcessRecord(route, recs[0], cache);
      if p.Some? {
        ProcessAllIsRunWith(route, recs[1..], p.value.cache);
      }
    }
  }

  lemma {:induction false} RunWithSnoc(step: (Record, Cache) -> Option<Processed>, recs: seq<Record>, cache: Cache, i: nat)
    requires RunWith(step, recs, cache).Some? && i < |recs|
    ensures RunWith(step, recs[..i], cache).Some?
    ensures step(recs[i], RunWith(step, recs[..i], cache).value.cache).Some?
    ensures RunWith(step, recs[..i + 1], cache).Some?
    ensures RunWith(step, recs[..i + 1], cache).value.log
            == RunWith(step, recs[..i], cache).value.log + step(recs[i], RunWith(step, recs[..i], cache).value.cache).value.log
    ensures RunWith(step, recs[..i + 1], cache).value.cache
            == step(recs[i], RunWith(step, recs[..i], cache).value.cache).value.cache
    decreases i
  {
    var first := step(recs[0], cache).value;
    if i == 0 {
      assert recs[..0] == [];
      assert recs[..1][0] == recs[0] && recs[..1][1..] == [];
      assert first.log + [] == first.log;
    } else {
      var tail := recs[1..];
      RunWithSnoc(step, tail, first.cache, i - 1);
      assert tail[i - 1] == recs[i];
      assert recs[..i][0] == recs[0] && recs[..i][1..] == tail[..i - 1];
      assert recs[..i + 1][0] == recs[0] && recs[..i + 1][1..] == tail[..i];
      var a := RunWith(step, tail[..i - 1], first.cache).value;
      var b := step(recs[i], a.cache).value;
      assert first.log + (a.log + b.log) == (first.log + a.log) + b.log;
    }
  }

  lemma {:induction false} RunWithAt(step: (Record, Cache) -> Option<Processed>, recs: seq<Record>, cache: Cache, i: nat)
    requires RunWith(step, recs, cache).Some? && i < |recs|
    ensures RunWith(step, recs[..i], cache).Some?
    ensures step(recs[i], RunWith(step, recs[..i], cache).value.cache).Some?
    ensures RunWith(step, recs, cache).value.records[i]
            == step(recs[i], RunWith(step, recs[..i], cache).value.cache).value.record
    decreases i
  {
    var first := step(recs[0], cache).value;
    if i == 0 {
      assert recs[..0] == [];
    } else {
      var tail := recs[1..];
      RunWithAt(step, tail, first.cache, i - 1);
      assert tail[i - 1] == recs[i];
      assert recs[..i][0] == recs[0] && recs[..i][1..] == tail[..i - 1];
    }
  }

  /** Processing one more record appends exactly that record's extractions, made under the
      cache the records before it left, to the run's, and leaves the cache it leaves: the
      run's log is its records' logs in order. */
  lemma ProcessAllSnoc(route: RouteFn, recs: seq<Record>, cache: Cache, i: nat)
    requires ProcessAll(route, recs, cache).Some? && i < |recs|
    ensures ProcessAll(route, recs[..i], cache).Some?
    ensures ProcessRecord(route, recs[i], ProcessAll(route, recs[..i], cache).value.cache).Some?
    ensures ProcessAll(route, recs[..i + 1], cache).Some?
    ensures ProcessAll(route, recs[..i + 1], cache).value.log
            == ProcessAll(route, recs[..i], cache).value.log
               + ProcessRecord(route, recs[i], ProcessAll(route, recs[..i], cache).value.cache).value.log
    ensures ProcessAll(route, recs[..i + 1], cache).value.cache
            == ProcessRecord(route, recs[i], ProcessAll(route, recs[..i], cache).value.cache).value.cache
  {
    ProcessAllIsRunWith(route, recs, cache);
    ProcessAllIsRunWith(route, recs[..i], cache);
    ProcessAllIsRunWith(route, recs[..i + 1], cache);
    RunWithSnoc(RecordStepOf(route), recs, cache, i);
  }

  /** Output record `i` is what processing `recs[i]` gives under the cache the records
      before it left. */
  lemma ProcessAllAt(route: RouteFn, recs: seq<Record>, cache: Cache, i: nat)
    requires ProcessAll(route, recs, cache).Some? && i < |recs|
    ensures ProcessAll(route, recs[..i], cache).Some?
    ensures ProcessRecord(route, recs[i], ProcessAll(route, recs[..i], cache).value.cache).Some?
    ensures ProcessAll(route, recs, cache).value.records[i]
            == ProcessRecord(route, recs[i], ProcessAll(route, recs[..i], cache).value.cache).value.record
  {
    ProcessAllIsRunWith(route, recs, cache);
    ProcessAllIsRunWith(route, recs[..i], cache);
    RunWithAt(RecordStepOf(route), recs, cache, i);
  }

  // ---------------------------------------------------------------------------
  // The stored text

  /** The text stored for record `i` of a run is the template over the attachments of its
      own files, routed under the cache the records before it left. */
  lemma RunStoredText(route: RouteFn, recs: seq<Record>, cache: Cache, i: nat)
    requires ProcessAll(route, recs, cache).Some? && i < |recs|
    ensures ProcessAll(route, recs[..i], cache).Some?
    ensures RouteAll(route, recs[i].files, ProcessAll(route, recs[..i], cache).value.cache).Some?
    ensures RagKey in ProcessAll(route, recs, cache).value.records[i].fields
    ensures ProcessAll(route, recs, cache).value.records[i].fields[RagKey]
            == RagText(recs[i].fields,
                       Section(RouteAll(route, recs[i].files, ProcessAll(route, recs[..i], cache).value.cache).value.atts))
  {
    ProcessAllAt(route, recs, cache, i);
    ProcessRecordText(route, recs[i], ProcessAll(route, recs[..i], cache).value.cache);
  }


  /** Each of `outs` is the record of `recs` at the same place, changed only by the text
      stored under `rag_full_text`. */
  ghost predicate StampedEach(recs: seq<Record>, outs: seq<Record>) {
    |outs| == |recs| && forall i :: 0 <= i < |recs| ==> Stamps(recs[i], outs[i])
  }

  /** Stamping is kept when one more record is processed in front. */
  lemma StampedCons(recs: seq<Record>, outs: seq<Record>, first: Record, rest: seq<Record>)
    requires recs != [] && outs == [first] + rest
    requires Stamps(recs[0], first) && StampedEach(recs[1..], rest)
    ensures StampedEach(recs, outs)
  {
    forall i | 0 < i < |recs| ensures Stamps(recs[i], outs[i]) {
      assert outs[i] == rest[i - 1] && recs[i] == recs[1..][i - 1];
    }
  }

  /** One step of the run: the first record, then the rest under the cache it left. */
  lemma ProcessAllCons(route: RouteFn, recs: seq<Record>, cache: Cache)
    requires recs != [] && ProcessAll(route, recs, cache).Some?
    ensures ProcessRecord(route, recs[0], cache).Some?
    ensures ProcessAll(route, recs[1..], ProcessRecord(route, recs[0], cache).value.cache).Some?
    ensures ProcessAll(route, recs, cache).value.records
            == [ProcessRecord(route, recs[0], cache).value.record]
               + ProcessAll(route, recs[1..], ProcessRecord(route, recs[0], cache).value.cache).value.records
  {
  }

  /** Every record of a run comes out in its place, changed only by its stored text. */
  lemma {:induction false} ProcessAllStamps(route: RouteFn, recs: seq<Record>, cache: Cache)
    requires ProcessAll(route, recs, cache).Some?
    ensures StampedEach(recs, ProcessAll(route, recs, cache).value.records)
    decreases |recs|
  {
    if recs != [] {
      ProcessAllCons(route, recs, cache);
      var p := ProcessRecord(route, recs[0], cache).value;
      ProcessAllStamps(route, recs[1..], p.cache);
      StampedCons(recs, ProcessAll(route, recs, cache).value.records, p.record,
                  ProcessAll(route, recs[1..], p.cache).value.records);
    }
  }

  /** Paths that do not exist contribute empty texts and leave the cache alone. */
  lemma {:induction false} RouteAllMissing(env: Env, fs: FileSystem, fuel: nat, paths: seq<Path>, cache: Cache)
    requires forall i :: 0 <= i < |paths| ==> paths[i] !in fs
    ensures RouteAll(RouterOf(env, fs, fuel), paths, cache).Some?
    ensures RouteAll(RouterOf(env, fs, fuel), paths, cache).value.cache == cache
    ensures RouteAll(RouterOf(env, fs, fuel), paths, cache).value.log == []
    ensures forall i :: 0 <= i < |paths| ==> RouteAll(RouterOf(env, fs, fuel), paths, cache).value.atts[i].text == []
    decreases |paths|
  {
    if paths != [] {
      assert paths[0] !in fs;
      assert forall i :: 0 <= i < |paths[1..]| ==> paths[1..][i] == paths[i + 1];
      RouteAllMissing(env, fs, fuel, paths[1..], cache);
      var rest := RouteAll(RouterOf(env, fs, fuel), paths[1..], cache).value;
      var r := RouteAll(RouterOf(env, fs, fuel), paths, cache).value;
      assert r.atts == [Attachment(paths[0], [])] + rest.atts;
      assert r.log == [] + [];
      forall i | 0 < i < |paths| ensures r.atts[i].text == [] {
        assert r.atts[i] == rest.atts[i - 1];
      }
    }
  }

  /** What processing a record stores, leaves in the cache and logs, in terms of the
      routed attachments of its files. */
  lemma ProcessRecordText(route: RouteFn, rec: Record, cache: Cache)
    requires ProcessRecord(route, rec, cache).Some?
    ensures RouteAll(route, rec.files, cache).Some?
    ensures ProcessRecord(route, rec, cache).value.record.fields[RagKey]
            == RagText(rec.fields, Section(RouteAll(route, rec.files, cache).value.atts))
    ensures ProcessRecord(route, rec, cache).value.cache == RouteAll(route, rec.files, cache).value.cache
    ensures ProcessRecord(route, rec, cache).value.log == RouteAll(route, rec.files, cache).value.log
  {
  }

  /** A record none of whose listed files exists (an empty list included) gets the header
      and the fallback line, and routing it changes nothing. */
  lemma MissingFilesFallback(env: Env, fs: FileSystem, fuel: nat, rec: Record, cache: Cache)
    requires forall i :: 0 <= i < |rec.files| ==> rec.files[i] !in fs
    ensures ProcessRecord(RouterOf(env, fs, fuel), rec, cache).Some?
    ensures ProcessRecord(RouterOf(env, fs, fuel), rec, cache).value.record.fields[RagKey]
            == Header(rec.fields) + NoAttachmentText
    ensures ProcessRecord(RouterOf(env, fs, fuel), rec, cache).value.cache == cache
    ensures ProcessRecord(RouterOf(env, fs, fuel), rec, cache).value.log == []
  {
    RouteAllMissing(env, fs, fuel, rec.files, cache);
    ProcessRecordText(RouterOf(env, fs, fuel), rec, cache);
    NoTextFallback(rec.fields, RouteAll(RouterOf(env, fs, fuel), rec.files, cache).value.atts);
  }

  /** The text stored under `rag_full_text`: the header with the record's own fields, then
      the blocks of its attachments without the final line break, or the fallback line when
      no attachment produced non-blank text. */
  lemma StoredText(route: RouteFn, rec: Record, cache: Cache)
    requires ProcessRecord(route, rec, cache).Some?
    ensures RouteAll(route, rec.files, cache).Some?
    ensures Blocks(RouteAll(route, rec.files, cache).value.atts) == [] ==>
              ProcessRecord(route, rec, cache).value.record.fields[RagKey]
              == Header(rec.fields) + NoAttachmentText
    ensures Blocks(RouteAll(route, rec.files, cache).value.atts) != [] ==>
              ProcessRecord(route, rec, cache).value.record.fields[RagKey]
              == Header(rec.fields) + Blocks(RouteAll(route, rec.files, cache).value.atts)
                   [..|Blocks(RouteAll(route, rec.files, cache).value.atts)| - 1]
  {
    ProcessRecordText(route, rec, cache);
    RagTextOfSection(rec.fields, RouteAll(route, rec.files, cache).value.atts);
  }

  /** An attached file whose text is not blank appears as its own block, named by the
      file's basename, between the blocks of the files listed before and after it. */
  lemma AttachmentInOrder(route: RouteFn, rec: Record, cache: Cache, i: nat)
    requires RouteAll(route, rec.files, cache).Some?
    requires i < |rec.files|
    requires !IsBlank(RouteAll(route, rec.files, cache).value.atts[i].text)
    ensures var atts := RouteAll(route, rec.files, cache).value.atts;
            Blocks(atts) ==
            Blocks(atts[..i]) + (Block(Basename(rec.files[i]), atts[i].text) + Blocks(atts[i + 1..]))
  {
    BlocksAt(RouteAll(route, rec.files, cache).value.atts, i);
  }
}

=== FILE: clean_text.dfy ===
/** `clean_text` from check_rag.py: delete the ASCII control characters a converter may
    leave in its output and turn the Unicode line and paragraph separators into `\n`. */
module CleanText {

  const LineSeparator: char := '\U{2028}'
  const ParagraphSeparator: char := '\U{2029}'

  /** The class `[\x00-\x08\x0b\x0c\x0e-\x1f\x7f]`: every C0 control except tab, line feed
      and carriage return, plus DEL. */
  predicate IsRemovedControl(c: char) {
    var n := c as int;
    (0x00 <= n <= 0x08) || n == 0x0b || n == 0x0c || (0x0e <= n <= 0x1f) || n == 0x7f
  }

  predicate IsSeparator(c: char) {
    c == LineSeparator || c == ParagraphSeparator
  }

  /** `re.sub(r'[\x00-\x08\x0b\x0c\x0e-\x1f\x7f]', '', s)` */
  function RemoveControls(s: string): (r: string)
    ensures |r| <= |s|
    ensures forall i :: 0 <= i < |r| ==> !IsRemovedControl(r[i])
    ensures forall c :: c in r <==> c in s && !IsRemovedControl(c)
  {
    if s == [] then []
    else (if IsRemovedControl(s[0]) then [] else [s[0]]) + RemoveControls(s[1..])
  }

  /** `s.replace(from, to)` for a one-character `from` and `to`. */
  function ReplaceChar(s: string, from: char, to: char): string {
    seq(|s|, i requires 0 <= i < |s| => if s[i] == from then to else s[i])
  }

  /** The two `replace` calls, in the order the source applies them. */
  function MapSeparators(s: string): string {
    ReplaceChar(ReplaceChar(s, LineSeparator, '\n'), ParagraphSeparator, '\n')
  }

  /** `clean_text(text)`; the `if not text` guard returns "" for the empty string. */
  function Clean(text: string): (r: string)
    ensures text == [] ==> r == []
    ensures |r| <= |text|
    ensures forall i :: 0 <= i < |r| ==> !IsRemovedControl(r[i]) && !IsSeparator(r[i])
  {
    if text == [] then [] else MapSeparators(RemoveControls(text))
  }

  // ---------------------------------------------------------------------------
  // An independent, one-character-at-a-time description of the same transformation

  /** What one input character becomes. */
  function CleanChar(c: char): string {
    if IsRemovedControl(c) then [] else if IsSeparator(c) then "\n" else [c]
  }

  function CleanEach(s: string): string {
    if s == [] then [] else CleanChar(s[0]) + CleanEach(s[1..])
  }

  /** Number of input characters the regular expression deletes. */
  function RemovedCount(s: string): nat {
    if s == [] then 0 else (if IsRemovedControl(s[0]) then 1 else 0) + RemovedCount(s[1..])
  }

  lemma ReplaceCharConcat(a: string, b: string, from: char, to: char)
    ensures ReplaceChar(a + b, from, to) == ReplaceChar(a, from, to) + ReplaceChar(b, from, to)
  {
  }

  lemma {:induction false} CleanEachConcat(a: string, b: string)
    ensures CleanEach(a + b) == CleanEach(a) + CleanEach(b)
    decreases |a|
  {
    if a == [] {
      assert a + b == b;
    } else {
      assert (a + b)[1..] == a[1..] + b;
      CleanEachConcat(a[1..], b);
    }
  }

  /** The regex-then-replace pipeline equals the per-character description: every kept
      character stays in its original relative position, each separator becomes one `\n`,
      and each control character disappears. */
  lemma {:induction false} CleanIsCharwise(s: string)
    ensures Clean(s) == CleanEach(s)
    decreases |s|
  {
    if s != [] {
      var head := if IsRemovedControl(s[0]) then [] else [s[0]];
      var tail := RemoveControls(s[1..]);
      assert RemoveControls(s) == head + tail;
      ReplaceCharConcat(head, tail, LineSeparator, '\n');
      ReplaceCharConcat(ReplaceChar(head, LineSeparator, '\n'), ReplaceChar(tail, LineSeparator, '\n'),
                        ParagraphSeparator, '\n');
      assert MapSeparators(RemoveControls(s)) == MapSeparators(head) + MapSeparators(tail);
      assert MapSeparators(head) == CleanChar(s[0]);
      CleanIsCharwise(s[1..]);
      if s[1..] == [] {
        assert MapSeparators(tail) == [];
      }
    }
  }

  /** `clean_text(clean_text(s)) == clean_text(s)`: the `\n` it introduces is neither a
      removed control nor a separator. */
  lemma {:induction false} CleanIdempotent(s: string)
    ensures Clean(Clean(s)) == Clean(s)
  {
    CleanIsCharwise(s);
    CleanIsCharwise(Clean(s));
    CleanEachIdempotent(s);
  }

  lemma {:induction false} CleanEachIdempotent(s: string)
    ensures CleanEach(CleanEach(s)) == CleanEach(s)
    decreases |s|
  {
    if s != [] {
      CleanEachConcat(CleanChar(s[0]), CleanEach(s[1..]));
      CleanEachIdempotent(s[1..]);
      var h := CleanChar(s[0]);
      if h != [] {
        assert h[1..] == [];
        assert CleanEach(h) == CleanChar(h[0]) + CleanEach(h[1..]);
      }
    }
  }

  /** The output is exactly as much shorter as the number of deleted control characters:
      separator replacement is one character for one. */
  lemma {:induction false} CleanLength(s: string)
    ensures |Clean(s)| == |s| - RemovedCount(s)
  {
    CleanIsCharwise(s);
    CleanEachLength(s);
  }

  lemma {:induction false} CleanEachLength(s: string)
    ensures |CleanEach(s)| == |s| - RemovedCount(s)
    decreases |s|
  {
    if s != [] {
      CleanEachLength(s[1..]);
    }
  }

  /** Occurrence counts: a character outside the removed set, other than `\n` and the two
      separators, occurs as often in the output as in the input (tab and carriage return
      among them); `\n` gains one occurrence per separator; removed characters and the
      separators never occur. */
  lemma {:induction false} CleanCounts(s: string, c: char)
    ensures IsRemovedControl(c) || IsSeparator(c) ==> multiset(Clean(s))[c] == 0
    ensures !IsRemovedControl(c) && !IsSeparator(c) && c != '\n' ==>
              multiset(Clean(s))[c] == multiset(s)[c]
    ensures multiset(Clean(s))['\n'] ==
              multiset(s)['\n'] + multiset(s)[LineSeparator] + multiset(s)[ParagraphSeparator]
  {
    CleanIsCharwise(s);
    CleanEachCounts(s, c);
    CleanEachCounts(s, '\n');
  }

  /** What one character contributes to the count of `c` in the output. */
  function CleanCharCount(h: char, c: char): nat {
    if IsRemovedControl(c) || IsSeparator(c) then 0
    else if c == '\n' then (if h == '\n' || IsSeparator(h) then 1 else 0)
    else if h == c then 1 else 0
  }

  lemma CleanCharCounts(h: char, c: char)
    ensures multiset(CleanChar(h))[c] == CleanCharCount(h, c)
  {
  }

  lemma {:induction false} CleanEachCounts(s: string, c: char)
    ensures IsRemovedControl(c) || IsSeparator(c) ==> multiset(CleanEach(s))[c] == 0
    ensures !IsRemovedControl(c) && !IsSeparator(c) && c != '\n' ==>
              multiset(CleanEach(s))[c] == multiset(s)[c]
    ensures c == '\n' ==>
              multiset(CleanEach(s))[c] ==
              multiset(s)['\n'] + multiset(s)[LineSeparator] + multiset(s)[ParagraphSeparator]
    decreases |s|
  {
    if s != [] {
      var h, t := s[0], s[1..];
      CleanEachCounts(t, c);
      CleanCharCounts(h, c);
      assert multiset(s)[c] == multiset([h])[c] + multiset(t)[c] by {
        assert s == [h] + t;
      }
      assert multiset(CleanEach(s))[c] == multiset(CleanChar(h))[c] + multiset(CleanEach(t))[c] by {
        assert CleanEach(s) == CleanChar(h) + CleanEach(t);
      }
    }
  }

  /** Tab, line feed and carriage return lie outside the deleted class: each one in the
      input is still there in the output. */
  lemma TabNewlineReturnSurvive(s: string)
    ensures multiset(Clean(s))['\t'] == multiset(s)['\t']
    ensures multiset(Clean(s))['\r'] == multiset(s)['\r']
    ensures multiset(Clean(s))['\n'] >= multiset(s)['\n']
  {
    CleanCounts(s, '\t');
    CleanCounts(s, '\r');
  }
}

=== FILE: pypath.dfy ===
/** The two POSIX path helpers the pipeline uses: `os.path.basename` and the extension
    half of `os.path.splitext`. Paths are strings with `/` as the only separator.

    Both are defined by a scan from the right end, one character at a time. The library's
    own formulation, slicing after the last separator and from the last dot, is given as a
    reference definition and proved equal. */
module PyPath {

  type Path = string

  const Sep: char := '/'
  const ExtSep: char := '.'

  /** `os.path.basename(p)`: the characters after the last separator. */
  function Basename(p: Path): string {
    if p == [] || p[|p| - 1] == Sep then []
    else Basename(p[..|p| - 1]) + [p[|p| - 1]]
  }

  /** True when `s` consists of dots only (the empty string included). */
  predicate AllDots(s: string) {
    s == [] || (s[0] == ExtSep && AllDots(s[1..]))
  }

  /** The extension of a file name: from its last dot to the end, unless every character
      before that dot is itself a dot (`.zip` and `..zip` have no extension). */
  function NameExt(b: string): string {
    if b == [] then []
    else if b[|b| - 1] == ExtSep then (if AllDots(b[..|b| - 1]) then [] else [ExtSep])
    else if NameExt(b[..|b| - 1]) == [] then []
    else NameExt(b[..|b| - 1]) + [b[|b| - 1]]
  }

  /** `os.path.splitext(p)[1]`: the extension of the final component. */
  function Ext(p: Path): string {
    NameExt(Basename(p))
  }

  // ---------------------------------------------------------------------------
  // The reference formulation

  /** Index of the last occurrence of `c` in `s`, or -1 (`str.rfind`). */
  function LastIndex(s: string, c: char): (r: int)
    ensures -1 <= r < |s|
    ensures r >= 0 ==> s[r] == c
  {
    if s == [] then -1
    else if s[|s| - 1] == c then |s| - 1
    else LastIndex(s[..|s| - 1], c)
  }

  /** `splitext` as the library writes it: slice from the last dot, when some character
      before that dot is not a dot. */
  function RefNameExt(b: string): string {
    var d := LastIndex(b, ExtSep);
    if d >= 0 && !AllDots(b[..d]) then b[d..] else []
  }

  /** `LastIndex` finds the last occurrence: none follows it. */
  lemma {:induction false} LastIndexIsLast(s: string, c: char)
    ensures forall i :: LastIndex(s, c) < i < |s| ==> s[i] != c
    decreases |s|
  {
    if s != [] && s[|s| - 1] != c {
      LastIndexIsLast(s[..|s| - 1], c);
    }
  }

  /** The basename is the slice after the last separator. */
  lemma {:induction false} BasenameIsAfterLastSep(p: Path)
    ensures Basename(p) == p[LastIndex(p, Sep) + 1..]
    decreases |p|
  {
    if p != [] && p[|p| - 1] != Sep {
      var q := p[..|p| - 1];
      BasenameIsAfterLastSep(q);
      var k := LastIndex(q, Sep) + 1;
      assert LastIndex(p, Sep) + 1 == k;
      assert p == q + [p[|p| - 1]];
      assert p[k..] == q[k..] + [p[|p| - 1]];
    }
  }

  /** The right-to-left scan computes the same extension as the slice from the last dot. */
  lemma {:induction false} NameExtIsRef(b: string)
    ensures NameExt(b) == RefNameExt(b)
    decreases |b|
  {
    if b != [] {
      var q := b[..|b| - 1];
      if b[|b| - 1] == ExtSep {
        assert LastIndex(b, ExtSep) == |b| - 1;
        assert b[..|b| - 1] == q;
      } else {
        NameExtIsRef(q);
        var d := LastIndex(q, ExtSep);
        assert LastIndex(b, ExtSep) == d;
        if d >= 0 {
          assert b[..d] == q[..d];
          assert b[d..] == q[d..] + [b[|b| - 1]];
        }
      }
    }
  }

  /** The basename is the part of the path after its last separator: a suffix of the path
      containing no separator, preceded by a separator or by nothing. */
  lemma BasenameSpec(p: Path)
    ensures Sep !in Basename(p)
    ensures |Basename(p)| <= |p| && Basename(p) == p[|p| - |Basename(p)|..]
    ensures |Basename(p)| == |p| || p[|p| - |Basename(p)| - 1] == Sep
  {
    BasenameIsAfterLastSep(p);
    LastIndexIsLast(p, Sep);
    var b := Basename(p);
    forall i | 0 <= i < |b| ensures b[i] != Sep {
      assert b[i] == p[LastIndex(p, Sep) + 1 + i];
    }
  }

  /** A non-empty extension is a suffix of the path that starts with its only dot and holds
      no separator. */
  lemma ExtSpec(p: Path)
    ensures Ext(p) == [] || (Ext(p)[0] == ExtSep && |Ext(p)| <= |p| && Ext(p) == p[|p| - |Ext(p)|..])
    ensures forall i :: 0 < i < |Ext(p)| ==> Ext(p)[i] != ExtSep && Ext(p)[i] != Sep
  {
    BasenameSpec(p);
    var b := Basename(p);
    NameExtIsRef(b);
    LastIndexIsLast(b, ExtSep);
    var r := Ext(p);
    if r != [] {
      var d := LastIndex(b, ExtSep);
      assert r == b[d..];
      forall i | 0 < i < |r| ensures r[i] != ExtSep && r[i] != Sep {
        assert r[i] == b[d + i];
      }
    }
  }

  /** A file reached as `dir/name` has the basename `name` and the extension of `name`
      alone: routing an archive member by its bare name classifies it as the full
      temporary path would. */
  lemma {:induction false} ExtOfJoin(dir: Path, name: string)
    requires Sep !in name
    ensures Basename(dir + [Sep] + name) == Basename(name) == name
    ensures Ext(dir + [Sep] + name) == Ext(name)
    decreases |name|
  {
    var p := dir + [Sep] + name;
    if name == [] {
      assert p[|p| - 1] == Sep;
    } else {
      var n := name[..|name| - 1];
      assert p[..|p| - 1] == dir + [Sep] + n;
      assert name[|name| - 1] in name;
      assert Sep !in n by {
        forall i | 0 <= i < |n| ensures n[i] != Sep {
          assert n[i] == name[i];
        }
      }
      ExtOfJoin(dir, n);
      assert n + [name[|name| - 1]] == name;
    }
  }
}

=== FILE: pystr.dfy ===
/** The parts of Python's `str` behaviour the pipeline relies on: which characters
    count as whitespace (`str.isspace`, `str.strip`), trimming, and lower-casing. */
module PyStr {

  /** `c.isspace()` in Python 3: the characters `str.strip()` and `str.split()` treat as
      whitespace (Unicode White_Space with bidirectional type WS, B or S, or category Zs). */
  predicate IsSpace(c: char) {
    var n := c as int;
    || (0x09 <= n <= 0x0d)
    || (0x1c <= n <= 0x20)
    || n == 0x85 || n == 0xa0 || n == 0x1680
    || (0x2000 <= n <= 0x200a)
    || n == 0x2028 || n == 0x2029 || n == 0x202f || n == 0x205f || n == 0x3000
  }

  /** `not s.strip()`: every character is whitespace (the empty string is blank). */
  predicate IsBlank(s: string) {
    s == [] || (IsSpace(s[0]) && IsBlank(s[1..]))
  }

  /** `s.lstrip()` */
  function TrimLeft(s: string): (r: string)
    ensures |r| <= |s| && r == s[|s| - |r|..]
    ensures r == [] || !IsSpace(r[0])
  {
    if s != [] && IsSpace(s[0]) then TrimLeft(s[1..]) else s
  }

  /** `s.rstrip()` */
  function TrimRight(s: string): (r: string)
    ensures |r| <= |s| && r == s[..|r|]
    ensures r == [] || !IsSpace(r[|r| - 1])
  {
    if s != [] && IsSpace(s[|s| - 1]) then TrimRight(s[..|s| - 1]) else s
  }

  /** `s.strip()` */
  function Strip(s: string): (r: string)
    ensures r == [] <==> IsBlank(s)
    ensures r == [] || (!IsSpace(r[0]) && !IsSpace(r[|r| - 1]))
    ensures exists i :: FramedAt(s, r, i)
  {
    var l := TrimLeft(s);
    TrimLeftEmpty(s);
    TrimLeftDropsBlank(s);
    if l == [] then
      BlankFramesEmpty(s);
      []
    else
      TrimRightKeeps(l, 0);
      var r := TrimRight(l);
      TrimsFrame(s);
      assert r[0] == l[0];
      r
  }

  /** `r` occurs in `s` at `i` with only whitespace before and after it. */
  predicate FramedAt(s: string, r: string, i: int) {
    0 <= i <= |s| - |r| && r == s[i..i + |r|] && IsBlank(s[..i]) && IsBlank(s[i + |r|..])
  }

  // ---------------------------------------------------------------------------
  // Blank strings

  /** Blank means: no character that is not whitespace. */
  lemma {:induction false} BlankSpec(s: string)
    ensures IsBlank(s) <==> forall i :: 0 <= i < |s| ==> IsSpace(s[i])
    decreases |s|
  {
    if s != [] {
      BlankSpec(s[1..]);
      assert forall i :: 0 < i < |s| ==> s[i] == s[1..][i - 1];
    }
  }

  /** A concatenation is blank exactly when both parts are. */
  lemma {:induction false} BlankAppend(a: string, b: string)
    ensures IsBlank(a + b) <==> IsBlank(a) && IsBlank(b)
    decreases |a|
  {
    if a == [] {
      assert a + b == b;
    } else {
      assert (a + b)[0] == a[0] && (a + b)[1..] == a[1..] + b;
      BlankAppend(a[1..], b);
    }
  }

  // ---------------------------------------------------------------------------
  // Trimming

  /** A blank string frames the empty string at its start. */
  lemma BlankFramesEmpty(s: string)
    requires IsBlank(s)
    ensures FramedAt(s, [], 0)
  {
    assert s[..0] == [] && s[0..] == s;
  }

  /** `rstrip(lstrip(s))` sits in `s` right after the whitespace `lstrip` dropped. */
  lemma TrimsFrame(s: string)
    ensures FramedAt(s, TrimRight(TrimLeft(s)), |s| - |TrimLeft(s)|)
  {
    var l := TrimLeft(s);
    var r := TrimRight(l);
    var i := |s| - |l|;
    assert l == s[i..];
    assert r == l[..|r|];
    assert r == s[i..i + |r|];
    assert IsBlank(s[..i]) by { TrimLeftDropsBlank(s); }
    assert IsBlank(s[i + |r|..]) by {
      TrimRightDropsBlank(l);
      assert s[i + |r|..] == l[|r|..];
    }
  }

  /** `lstrip` removes a blank prefix: the part it drops is whitespace only. */
  lemma {:induction false} TrimLeftDropsBlank(s: string)
    ensures IsBlank(s[..|s| - |TrimLeft(s)|])
    decreases |s|
  {
    if s != [] && IsSpace(s[0]) {
      TrimLeftDropsBlank(s[1..]);
      var k := |s| - |TrimLeft(s)|;
      assert s[..k][0] == s[0] && s[..k][1..] == s[1..][..k - 1];
    }
  }

  /** `rstrip` removes a blank suffix: the part it drops is whitespace only. */
  lemma {:induction false} TrimRightDropsBlank(s: string)
    ensures IsBlank(s[|TrimRight(s)|..])
    decreases |s|
  {
    if s != [] && IsSpace(s[|s| - 1]) {
      var t := s[..|s| - 1];
      TrimRightDropsBlank(t);
      var k := |TrimRight(s)|;
      assert s[k..] == t[k..] + [s[|s| - 1]];
      BlankAppend(t[k..], [s[|s| - 1]]);
    }
  }

  /** `lstrip` leaves nothing exactly when the string is blank. */
  lemma {:induction false} TrimLeftEmpty(s: string)
    ensures TrimLeft(s) == [] <==> IsBlank(s)
    decreases |s|
  {
    if s != [] && IsSpace(s[0]) {
      TrimLeftEmpty(s[1..]);
    }
  }

  /** `rstrip` never removes a non-space character or anything before it. */
  lemma {:induction false} TrimRightKeeps(s: string, i: nat)
    requires i < |s| && !IsSpace(s[i])
    ensures i < |TrimRight(s)|
    decreases |s|
  {
    if IsSpace(s[|s| - 1]) {
      TrimRightKeeps(s[..|s| - 1], i);
    }
  }

  /** A string that starts with a non-space character loses nothing on the left. */
  lemma TrimLeftNonSpace(s: string)
    requires s != [] && !IsSpace(s[0])
    ensures TrimLeft(s) == s
  {
  }

  /** A string ending in a non-space character is its own `rstrip`. */
  lemma TrimRightNonSpace(s: string)
    requires s != [] && !IsSpace(s[|s| - 1])
    ensures TrimRight(s) == s
  {
  }

  /** Leading whitespace is dropped by `lstrip` as if it had never been prepended. */
  lemma {:induction false} TrimLeftBlankPrefix(a: string, b: string)
    requires IsBlank(a)
    ensures TrimLeft(a + b) == TrimLeft(b)
    decreases |a|
  {
    if a != [] {
      assert (a + b)[0] == a[0] && (a + b)[1..] == a[1..] + b;
      TrimLeftBlankPrefix(a[1..], b);
    } else {
      assert a + b == b;
    }
  }

  /** Trailing whitespace is dropped by `rstrip` as if it had never been appended. */
  lemma {:induction false} TrimRightBlankSuffix(a: string, b: string)
    requires IsBlank(b)
    ensures TrimRight(a + b) == TrimRight(a)
    decreases |b|
  {
    if b == [] {
      assert a + b == a;
    } else {
      var a' := a + [b[0]];
      assert a + b == a' + b[1..];
      TrimRightBlankSuffix(a', b[1..]);
      assert a'[..|a'| - 1] == a;
    }
  }

  /** `rstrip` only reaches into the last part of a concatenation when that part is not
      blank. */
  lemma {:induction false} TrimRightAppend(a: string, b: string)
    requires !IsBlank(b)
    ensures TrimRight(a + b) == a + TrimRight(b)
    decreases |b|
  {
    assert b != [];
    if IsSpace(b[|b| - 1]) {
      var b' := b[..|b| - 1];
      assert (a + b)[..|a + b| - 1] == a + b';
      assert b == b' + [b[|b| - 1]];
      BlankAppend(b', [b[|b| - 1]]);
      TrimRightAppend(a, b');
    }
  }

  /** A string whose last character is whitespace and whose last but one is not loses
      exactly the last character to `rstrip`. */
  lemma TrimRightLastSpace(s: string)
    requires |s| >= 2 && IsSpace(s[|s| - 1]) && !IsSpace(s[|s| - 2])
    ensures !IsBlank(s)
    ensures TrimRight(s) == s[..|s| - 1]
  {
    BlankSpec(s);
    TrimRightNonSpace(s[..|s| - 1]);
  }

  /** `strip` of a text framed by whitespace on both sides, whose first non-space
      character opens `head`: the frame goes, and so does the whitespace ending `mid`. */
  lemma StripFrame(lead: string, head: string, mid: string, trail: string)
    requires IsBlank(lead) && IsBlank(trail) && !IsBlank(mid)
    requires head != [] && !IsSpace(head[0])
    ensures Strip(lead + (head + (mid + trail))) == head + TrimRight(mid)
  {
    var body := head + (mid + trail);
    assert TrimLeft(lead + body) == body by {
      TrimLeftBlankPrefix(lead, body);
      assert body[0] == head[0];
      TrimLeftNonSpace(body);
    }
    assert TrimRight(body) == head + TrimRight(mid) by {
      BlankAppend(mid, trail);
      TrimRightAppend(head, mid + trail);
      TrimRightBlankSuffix(mid, trail);
    }
  }

  // ---------------------------------------------------------------------------
  // Lower case

  /** ASCII upper case to lower case; every other character is unchanged. */
  function LowerChar(c: char): char {
    if 'A' <= c <= 'Z' then (c as int - 'A' as int + 'a' as int) as char else c
  }

  /** `s.lower()` restricted to the ASCII letters (see README for why this suffices). */
  function Lower(s: string): (r: string)
    ensures |r| == |s|
  {
    seq(|s|, i requires 0 <= i < |s| => LowerChar(s[i]))
  }

  /** Lower-casing turns each ASCII capital into its small letter, 32 code points further
      on, and changes no other character. */
  lemma LowerSpec(s: string)
    ensures forall i :: 0 <= i < |s| && 'A' <= s[i] <= 'Z' ==>
              'a' <= Lower(s)[i] <= 'z' && Lower(s)[i] as int == s[i] as int + 32
    ensures forall i :: 0 <= i < |s| ==> !('A' <= Lower(s)[i] <= 'Z')
    ensures forall i :: 0 <= i < |s| && !('A' <= s[i] <= 'Z') ==> Lower(s)[i] == s[i]
  {
  }
}

=== FILE: router.dfy ===
/** The content-addressed extraction router of preprocess.py: `calculate_file_hash`,
    `process_file_router`, the extension dispatch and `process_zip_recursive`.

    The process-wide `CONTENT_CACHE` dictionary is threaded through explicitly: every call
    takes the cache it starts from and returns the cache it leaves behind. The hash and the
    three text backends are fields of an `Env`, uninterpreted functions of the file bytes;
    unpacking an archive is one more such function returning the member files in the order
    the directory walk visits them. The source recurses into nested archives without a
    bound, so the model carries `fuel`: the number of archive levels it is willing to
    open. A result of `None` means the fuel ran out, never anything the source does. */
module Router {
  import opened PyStr
  import opened PyPath

  newtype byte = b: int | 0 <= b < 256
  type Bytes = seq<byte>

  /** A SHA-256 `hexdigest()`. All the router relies on is that it is never the falsy
      empty string. */
  type Digest = s: string | s != []
    witness "0"

  /** `CONTENT_CACHE`: digest to extracted text. */
  type Cache = map<Digest, string>

  /** The files `os.path.exists` can see, with their contents. */
  type FileSystem = map<Path, Bytes>

  datatype Option<T> = None | Some(value: T)

  /** One file found under the temporary directory an archive was unpacked into: its file
      name (the `file` of `os.walk`) and its bytes. */
  datatype Member = Member(name: string, data: Bytes)

  /** What unpacking an archive into a temporary directory can come to. */
  datatype Unpacked =
    | Members(members: seq<Member>)  // unpacked; the files in `os.walk` order
    | BadArchive                     // `zipfile.BadZipFile` or `RuntimeError` (e.g. encrypted)
    | UnpackError                    // any other exception, caught by the outer handler

  /** The collaborators the router calls but whose internals are not modelled. */
  datatype Env = Env(
    digest: Bytes -> Option<Digest>,  // `calculate_file_hash`; None when reading fails
    hwp: Bytes -> string,             // `extract_text_from_hwp`
    pdf: Bytes -> string,             // `extract_text_from_pdf`
    ocr: Bytes -> string,             // `extract_text_from_image`
    unzip: Bytes -> Unpacked)         // `zipfile.ZipFile(...).extractall` followed by `os.walk`

  /** The branches of the extension dispatch. */
  datatype Kind = Archive | Hwp | Pdf | Image | Unsupported

  /** One invocation of an extractor (or of the archive walker) on some bytes. */
  datatype Extraction = Extraction(kind: Kind, data: Bytes)

  /** The text a route returns, the cache it leaves, and the extractors it invoked in order. */
  datatype Routed = Routed(text: string, cache: Cache, log: seq<Extraction>)

  /** The member texts of one archive, in walk order, with the cache and invocations. */
  datatype Walked = Walked(texts: seq<string>, cache: Cache, log: seq<Extraction>)

  const ZipErrorMarker: string := "[Error] 손상되었거나 암호화된 ZIP 파일"

  /** The extension dispatch table; `ext` is already lower-cased. */
  function Classify(ext: string): (k: Kind)
  {
    if ext == ".zip" then Archive
    else if ext in [".hwp", ".hwpx"] then Hwp
    else if ext == ".pdf" then Pdf
    else if ext in [".jpg", ".jpeg", ".png", ".bmp"] then Image
    else Unsupported
  }

  /** `os.path.splitext(filepath)[1].lower()`, classified. */
  function KindOf(path: Path): Kind {
    Classify(Lower(Ext(path)))
  }

  /** The cache holds the digest of these bytes, so routing them is a cache hit. */
  predicate Cached(env: Env, data: Bytes, cache: Cache) {
    env.digest(data).Some? && env.digest(data).value in cache
  }

  /** Every entry of `before` is still in `after` with the same text. */
  predicate Extends(before: Cache, after: Cache) {
    forall k :: k in before ==> k in after && after[k] == before[k]
  }

  /** The fragment one non-empty member contributes to an archive's text. */
  function Label(name: string, text: string): string {
    "\n[압축내용: " + name + "]\n" + text + "\n"
  }

  /** The archive's text: the labelled fragments of the members whose text is non-empty,
      in walk order. */
  function Labelled(ms: seq<Member>, texts: seq<string>): (r: string)
    requires |ms| == |texts|
  {
    if ms == [] then []
    else (if texts[0] != [] then Label(ms[0].name, texts[0]) else []) + Labelled(ms[1..], texts[1..])
  }

  /** `process_file_router(filepath)`, on a path that exists (see `RoutePath`): hash, look
      up, and on a miss dispatch and store the result under the digest. */
  function RouteFile(env: Env, path: Path, data: Bytes, cache: Cache, fuel: nat): (r: Option<Routed>)
    decreases fuel, 1
    ensures Cached(env, data, cache) ==>
              r == Some(Routed(cache[env.digest(data).value], cache, []))
    ensures r.Some? && env.digest(data).Some? ==>
              env.digest(data).value in r.value.cache &&
              r.value.cache[env.digest(data).value] == r.value.text
    ensures !Cached(env, data, cache) && KindOf(path) == Unsupported ==>
              r.Some? && r.value.text == [] && r.value.log == []
    ensures env.digest(data).None? && KindOf(path) != Archive ==>
              r.Some? && r.value.cache == cache
    ensures !Cached(env, data, cache) && KindOf(path) != Archive ==>
              r.Some? &&
              r.value.cache == (if env.digest(data).Some? then cache[env.digest(data).value := r.value.text] else cache)
  {
    var h := env.digest(data);
    if h.Some? && h.value in cache then Some(Routed(cache[h.value], cache, []))
    else
      match Extract(env, KindOf(path), data, cache, fuel)
      case None => None
      case Some(x) =>
        Some(Routed(x.text, if h.Some? then x.cache[h.value := x.text] else x.cache, x.log))
  }

  /** The body of the `try` in `process_file_router`: the extractor the kind selects. */
  function Extract(env: Env, kind: Kind, data: Bytes, cache: Cache, fuel: nat): (r: Option<Routed>)
    decreases fuel, 0
    ensures kind != Archive ==> r.Some? && r.value.cache == cache
    ensures kind == Unsupported ==> r == Some(Routed([], cache, []))
  {
    match kind
    case Unsupported => Some(Routed([], cache, []))
    case Hwp => Some(Routed(env.hwp(data), cache, [Extraction(Hwp, data)]))
    case Pdf => Some(Routed(env.pdf(data), cache, [Extraction(Pdf, data)]))
    case Image => Some(Routed(env.ocr(data), cache, [Extraction(Image, data)]))
    case Archive =>
      if fuel == 0 then None
      else
        match env.unzip(data)
        case BadArchive => Some(Routed(ZipErrorMarker, cache, [Extraction(Archive, data)]))
        case UnpackError => Some(Routed([], cache, [Extraction(Archive, data)]))
        case Members(ms) =>
          match Walk(env, ms, cache, fuel - 1)
          case None => None
          case Some(w) =>
            Some(Routed(Labelled(ms, w.texts), w.cache, [Extraction(Archive, data)] + w.log))
  }

  /** The `os.walk` loop of `process_zip_recursive`: route every member in turn, each one
      seeing the cache the previous one left. */
  function Walk(env: Env, ms: seq<Member>, cache: Cache, fuel: nat): (r: Option<Walked>)
    decreases fuel, 2, |ms|
    ensures r.Some? ==> |r.value.texts| == |ms|
  {
    if ms == [] then Some(Walked([], cache, []))
    else
      match RouteFile(env, ms[0].name, ms[0].data, cache, fuel)
      case None => None
      case Some(first) =>
        match Walk(env, ms[1..], first.cache, fuel)
        case None => None
        case Some(rest) => Some(Walked([first.text] + rest.texts, rest.cache, first.log + rest.log))
  }

  /** `process_file_router(filepath)`: a path that does not exist yields "" and touches
      nothing; otherwise the file's bytes are routed. */
  function RoutePath(env: Env, fs: FileSystem, path: Path, cache: Cache, fuel: nat): (r: Option<Routed>)
    ensures path !in fs ==> r == Some(Routed([], cache, []))
  {
    if path !in fs then Some(Routed([], cache, []))
    else RouteFile(env, path, fs[path], cache, fuel)
  }
}

=== FILE: router_props.dfy ===
/** Properties of the extraction router: what a cache hit, a miss, an unreadable hash, an
    unsupported extension and a broken archive each come to; that dispatch sees only the
    lower-cased extension; that archive text is assembled in walk order; that fuel is only a
    bound; and that no leaf extractor runs twice on content with the same digest. */
module RouterProps {
  import opened PyStr
  import opened PyPath
  import opened Router

  // ---------------------------------------------------------------------------
  // Single calls

  /** On a miss, a document, PDF or image is handed to its backend, once, and the result is
      what the route returns. */
  lemma LeafDispatch(env: Env, path: Path, data: Bytes, cache: Cache, fuel: nat)
    requires !Cached(env, data, cache)
    ensures KindOf(path) == Hwp ==>
              RouteFile(env, path, data, cache, fuel).Some? &&
              RouteFile(env, path, data, cache, fuel).value.text == env.hwp(data) &&
              RouteFile(env, path, data, cache, fuel).value.log == [Extraction(Hwp, data)]
    ensures KindOf(path) == Pdf ==>
              RouteFile(env, path, data, cache, fuel).Some? &&
              RouteFile(env, path, data, cache, fuel).value.text == env.pdf(data) &&
              RouteFile(env, path, data, cache, fuel).value.log == [Extraction(Pdf, data)]
    ensures KindOf(path) == Image ==>
              RouteFile(env, path, data, cache, fuel).Some? &&
              RouteFile(env, path, data, cache, fuel).value.text == env.ocr(data) &&
              RouteFile(env, path, data, cache, fuel).value.log == [Extraction(Image, data)]
  {
  }

  /** When hashing fails the file is still extracted, but the route adds no entry of its
      own: the result is exactly the bare extraction's. */
  lemma UnhashableIsNotCached(env: Env, path: Path, data: Bytes, cache: Cache, fuel: nat)
    requires env.digest(data).None?
    ensures RouteFile(env, path, data, cache, fuel) == Extract(env, KindOf(path), data, cache, fuel)
  {
  }

  /** An archive that cannot be opened yields the fixed error marker, and that marker is what
      gets cached under its digest. */
  lemma BadArchiveIsCached(env: Env, path: Path, data: Bytes, cache: Cache, fuel: nat)
    requires !Cached(env, data, cache) && KindOf(path) == Archive && fuel > 0
    requires env.unzip(data) == BadArchive
    ensures RouteFile(env, path, data, cache, fuel).Some?
    ensures RouteFile(env, path, data, cache, fuel).value.text == ZipErrorMarker
    ensures RouteFile(env, path, data, cache, fuel).value.cache ==
              (if env.digest(data).Some? then cache[env.digest(data).value := ZipErrorMarker] else cache)
  {
    assert Extract(env, Archive, data, cache, fuel)
        == Some(Routed(ZipErrorMarker, cache, [Extraction(Archive, data)]));
  }

  /** An archive that unpacks is the labelled concatenation of its members' routed texts,
      and the walker runs before any member's extractor. */
  lemma ArchiveText(env: Env, path: Path, data: Bytes, cache: Cache, fuel: nat, ms: seq<Member>, w: Walked)
    requires !Cached(env, data, cache) && KindOf(path) == Archive && fuel > 0
    requires env.unzip(data) == Members(ms)
    requires Walk(env, ms, cache, fuel - 1) == Some(w)
    ensures RouteFile(env, path, data, cache, fuel).Some?
    ensures RouteFile(env, path, data, cache, fuel).value.text == Labelled(ms, w.texts)
    ensures RouteFile(env, path, data, cache, fuel).value.log == [Extraction(Archive, data)] + w.log
    ensures RouteFile(env, path, data, cache, fuel).value.cache ==
              (if env.digest(data).Some? then w.cache[env.digest(data).value := Labelled(ms, w.texts)] else w.cache)
  {
  }

  /** An archive whose unpacking raises any other exception yields the empty text the outer
      handler leaves behind, and that empty text is cached under its digest. */
  lemma UnpackErrorIsEmpty(env: Env, path: Path, data: Bytes, cache: Cache, fuel: nat)
    requires !Cached(env, data, cache) && KindOf(path) == Archive && fuel > 0
    requires env.unzip(data) == UnpackError
    ensures RouteFile(env, path, data, cache, fuel).Some?
    ensures RouteFile(env, path, data, cache, fuel).value.text == []
    ensures RouteFile(env, path, data, cache, fuel).value.log == [Extraction(Archive, data)]
    ensures RouteFile(env, path, data, cache, fuel).value.cache ==
              (if env.digest(data).Some? then cache[env.digest(data).value := []] else cache)
  {
    assert Extract(env, Archive, data, cache, fuel) == Some(Routed([], cache, [Extraction(Archive, data)]));
  }

  /** Dispatch depends on the lower-cased extension only: two paths whose extensions agree
      up to ASCII case route the same bytes identically. */
  lemma SameExtensionSameRoute(env: Env, p: Path, q: Path, data: Bytes, cache: Cache, fuel: nat)
    requires Lower(Ext(p)) == Lower(Ext(q))
    ensures RouteFile(env, p, data, cache, fuel) == RouteFile(env, q, data, cache, fuel)
  {
  }

  /** Two characters that are the same letter up to ASCII case (`'Z'` and `'z'`), or the
      same character. */
  predicate SameUpToCase(a: char, b: char) {
    || a == b
    || ('A' <= a <= 'Z' && b as int == a as int + 32)
    || ('A' <= b <= 'Z' && a as int == b as int + 32)
  }

  /** `.ZIP`, `.Pdf` and `.HWPX` dispatch like `.zip`, `.pdf` and `.hwpx`: extensions that
      differ only in the case of ASCII letters route the same bytes identically. */
  lemma CaseBlindDispatch(env: Env, p: Path, q: Path, data: Bytes, cache: Cache, fuel: nat)
    requires |Ext(p)| == |Ext(q)|
    requires forall i :: 0 <= i < |Ext(p)| ==> SameUpToCase(Ext(p)[i], Ext(q)[i])
    ensures KindOf(p) == KindOf(q)
    ensures RouteFile(env, p, data, cache, fuel) == RouteFile(env, q, data, cache, fuel)
  {
    LowerSpec(Ext(p));
    LowerSpec(Ext(q));
    assert Lower(Ext(p)) == Lower(Ext(q));
    SameExtensionSameRoute(env, p, q, data, cache, fuel);
  }

  /** Routing byte-identical content again, under any name, after it has been routed once
      with a digest, returns the same text, changes nothing and invokes no extractor. */
  lemma RouteAgain(env: Env, p: Path, q: Path, data: Bytes, cache: Cache, fuel: nat, fuel': nat)
    requires env.digest(data).Some?
    requires RouteFile(env, p, data, cache, fuel).Some?
    ensures var first := RouteFile(env, p, data, cache, fuel).value;
            RouteFile(env, q, data, first.cache, fuel') == Some(Routed(first.text, first.cache, []))
  {
  }

  /** Two attachments with the same content at different paths: the second is a cache hit. */
  lemma TwinFiles(env: Env, fs: FileSystem, p: Path, q: Path, cache: Cache, fuel: nat)
    requires p in fs && q in fs && fs[p] == fs[q]
    requires env.digest(fs[p]).Some?
    requires RoutePath(env, fs, p, cache, fuel).Some?
    ensures var first := RoutePath(env, fs, p, cache, fuel).value;
            RoutePath(env, fs, q, first.cache, fuel) == Some(Routed(first.text, first.cache, []))
  {
  }

  // ---------------------------------------------------------------------------
  // Archive text

  /** Archive text composes along the member order. */
  lemma {:induction false} LabelledAppend(ms: seq<Member>, ts: seq<string>, ms': seq<Member>, ts': seq<string>)
    requires |ms| == |ts| && |ms'| == |ts'|
    ensures Labelled(ms + ms', ts + ts') == Labelled(ms, ts) + Labelled(ms', ts')
    decreases |ms|
  {
    if ms == [] {
      assert ms + ms' == ms' && ts + ts' == ts';
    } else {
      var a, b := ms + ms', ts + ts';
      assert a[0] == ms[0] && b[0] == ts[0];
      assert a[1..] == ms[1..] + ms' && b[1..] == ts[1..] + ts';
      LabelledAppend(ms[1..], ts[1..], ms', ts');
    }
  }

  /** Each member with non-empty text contributes its labelled fragment at its own position:
      after everything the earlier members contribute, before the later ones. */
  lemma LabelledAt(ms: seq<Member>, ts: seq<string>, i: nat)
    requires |ms| == |ts| && i < |ms| && ts[i] != []
    ensures Labelled(ms, ts) ==
            Labelled(ms[..i], ts[..i]) + Label(ms[i].name, ts[i]) + Labelled(ms[i + 1..], ts[i + 1..])
  {
    var after, tAfter := ms[i..], ts[i..];
    assert ms == ms[..i] + after && ts == ts[..i] + tAfter;
    LabelledAppend(ms[..i], ts[..i], after, tAfter);
    assert after[1..] == ms[i + 1..] && tAfter[1..] == ts[i + 1..];
    LabelledFirst(after, tAfter);
  }

  /** A member whose routed text is empty contributes nothing to the archive's text. */
  lemma LabelledSkip(ms: seq<Member>, ts: seq<string>, i: nat)
    requires |ms| == |ts| && i < |ms| && ts[i] == []
    ensures Labelled(ms, ts) == Labelled(ms[..i], ts[..i]) + Labelled(ms[i + 1..], ts[i + 1..])
  {
    var after, tAfter := ms[i..], ts[i..];
    assert Labelled(ms, ts) == Labelled(ms[..i], ts[..i]) + Labelled(after, tAfter) by {
      assert ms == ms[..i] + after && ts == ts[..i] + tAfter;
      LabelledAppend(ms[..i], ts[..i], after, tAfter);
    }
    assert Labelled(after, tAfter) == Labelled(ms[i + 1..], ts[i + 1..]) by {
      assert after[1..] == ms[i + 1..] && tAfter[1..] == ts[i + 1..];
      assert tAfter[0] == [];
    }
  }

  /** The first member's fragment comes first. */
  lemma LabelledFirst(ms: seq<Member>, ts: seq<string>)
    requires |ms| == |ts| && ms != [] && ts[0] != []
    ensures Labelled(ms, ts) == Label(ms[0].name, ts[0]) + Labelled(ms[1..], ts[1..])
  {
  }

  /** Every member whose digest is already cached: walking them extracts nothing and
      returns the cached texts. */
  predicate AllCached(env: Env, ms: seq<Member>, cache: Cache) {
    forall i :: 0 <= i < |ms| ==> Cached(env, ms[i].data, cache)
  }

  lemma {:induction false} WalkAllCached(env: Env, ms: seq<Member>, cache: Cache, fuel: nat)
    requires AllCached(env, ms, cache)
    ensures Walk(env, ms, cache, fuel).Some?
    ensures Walk(env, ms, cache, fuel).value.cache == cache
    ensures Walk(env, ms, cache, fuel).value.log == []
    ensures forall i :: 0 <= i < |ms| ==>
              Walk(env, ms, cache, fuel).value.texts[i] == cache[env.digest(ms[i].data).value]
    decreases |ms|
  {
    if ms != [] {
      assert Cached(env, ms[0].data, cache);
      assert AllCached(env, ms[1..], cache) by {
        forall i | 0 <= i < |ms[1..]| ensures Cached(env, ms[1..][i].data, cache) {
          assert ms[1..][i] == ms[i + 1];
        }
      }
      WalkAllCached(env, ms[1..], cache, fuel);
      var w := Walk(env, ms, cache, fuel).value;
      forall i | 0 <= i < |ms| ensures w.texts[i] == cache[env.digest(ms[i].data).value] {
        if i > 0 {
          assert ms[1..][i - 1] == ms[i];
        }
      }
    }
  }

  /** Member `i`'s text is what routing it returns under the cache the members before it
      left: the walk routes the members one after another, left to right. */
  lemma {:induction false} WalkAt(env: Env, ms: seq<Member>, cache: Cache, fuel: nat, i: nat)
    requires Walk(env, ms, cache, fuel).Some? && i < |ms|
    ensures Walk(env, ms[..i], cache, fuel).Some?
    ensures RouteFile(env, ms[i].name, ms[i].data, Walk(env, ms[..i], cache, fuel).value.cache, fuel).Some?
    ensures Walk(env, ms, cache, fuel).value.texts[i]
            == RouteFile(env, ms[i].name, ms[i].data, Walk(env, ms[..i], cache, fuel).value.cache, fuel).value.text
    decreases i
  {
    var first := RouteFile(env, ms[0].name, ms[0].data, cache, fuel).value;
    if i == 0 {
      assert ms[..0] == [];
    } else {
      WalkAt(env, ms[1..], first.cache, fuel, i - 1);
      assert ms[..i][0] == ms[0] && ms[..i][1..] == ms[1..][..i - 1];
      assert ms[1..][i - 1] == ms[i];
      var rest := Walk(env, ms[1..], first.cache, fuel).value;
      assert Walk(env, ms, cache, fuel).value.texts == [first.text] + rest.texts;
    }
  }

  /** The walk loop over an arbitrary per-member route: the same fold as `Walk`, stated so
      that facts about the loop itself need not unfold the router. */
  function WalkWith(step: (Member, Cache) -> Option<Routed>, ms: seq<Member>, cache: Cache): (r: Option<Walked>)
    ensures r.Some? ==> |r.value.texts| == |ms|
    decreases |ms|
  {
    if ms == [] then Some(Walked([], cache, []))
    else
      match step(ms[0], cache)
      case None => None
      case Some(first) =>
        match WalkWith(step, ms[1..], first.cache)
        case None => None
        case Some(rest) => Some(Walked([first.text] + rest.texts, rest.cache, first.log + rest.log))
  }

  /** Routing one member of an archive. */
  function StepOf(env: Env, fuel: nat): (Member, Cache) -> Option<Routed> {
    (m: Member, c: Cache) => RouteFile(env, m.name, m.data, c, fuel)
  }

  lemma {:induction false} WalkIsWalkWith(env: Env, ms: seq<Member>, cache: Cache, fuel: nat)
    ensures Walk(env, ms, cache, fuel) == WalkWith(StepOf(env, fuel), ms, cache)
    decreases |ms|
  {
    if ms != [] {
      var first := RouteFile(env, ms[0].name, ms[0].data, cache, fuel);
      if first.Some? {
        WalkIsWalkWith(env, ms[1..], first.value.cache, fuel);
      }
    }
  }

  /** Walking one more member appends that member's route to the loop's extractions and
      leaves the cache that route leaves. */
  lemma {:induction false} WalkWithSnoc(step: (Member, Cache) -> Option<Routed>, ms: seq<Member>, cache: Cache, i: nat)
    requires WalkWith(step, ms, cache).Some? && i < |ms|
    ensures WalkWith(step, ms[..i], cache).Some?
    ensures step(ms[i], WalkWith(step, ms[..i], cache).value.cache).Some?
    ensures WalkWith(step, ms[..i + 1], cache).Some?
    ensures WalkWith(step, ms[..i + 1], cache).value.log
            == WalkWith(step, ms[..i], cache).value.log + step(ms[i], WalkWith(step, ms[..i], cache).value.cache).value.log
    ensures WalkWith(step, ms[..i + 1], cache).value.cache
            == step(ms[i], WalkWith(step, ms[..i], cache).value.cache).value.cache
    decreases i
  {
    var first := step(ms[0], cache).value;
    if i == 0 {
      assert ms[..0] == [];
      assert ms[..1][0] == ms[0] && ms[..1][1..] == [];
      assert first.log + [] == first.log;
    } else {
      var tail := ms[1..];
      WalkWithSnoc(step, tail, first.cache, i - 1);
      assert tail[i - 1] == ms[i];
      assert ms[..i][0] == ms[0] && ms[..i][1..] == tail[..i - 1];
      assert ms[..i + 1][0] == ms[0] && ms[..i + 1][1..] == tail[..i];
      var a := WalkWith(step, tail[..i - 1], first.cache).value;
      var b := step(ms[i], a.cache).value;
      assert first.log + (a.log + b.log) == (first.log + a.log) + b.log;
    }
  }

  /** Walking one more member appends exactly that member's route, under the cache the
      members before it left, to the walk's extractions, and leaves the cache that route
      leaves: the walk's log is its members' route logs in walk order. */
  lemma WalkSnoc(env: Env, ms: seq<Member>, cache: Cache, fuel: nat, i: nat)
    requires Walk(env, ms, cache, fuel).Some? && i < |ms|
    ensures Walk(env, ms[..i], cache, fuel).Some?
    ensures RouteFile(env, ms[i].name, ms[i].data, Walk(env, ms[..i], cache, fuel).value.cache, fuel).Some?
    ensures Walk(env, ms[..i + 1], cache, fuel).Some?
    ensures Walk(env, ms[..i + 1], cache, fuel).value.log
            == Walk(env, ms[..i], cache, fuel).value.log
               + RouteFile(env, ms[i].name, ms[i].data, Walk(env, ms[..i], cache, fuel).value.cache, fuel).value.log
    ensures Walk(env, ms[..i + 1], cache, fuel).value.cache
            == RouteFile(env, ms[i].name, ms[i].data, Walk(env, ms[..i], cache, fuel).value.cache, fuel).value.cache
  {
    WalkIsWalkWith(env, ms, cache, fuel);
    WalkIsWalkWith(env, ms[..i], cache, fuel);
    WalkIsWalkWith(env, ms[..i + 1], cache, fuel);
    WalkWithSnoc(StepOf(env, fuel), ms, cache, i);
  }

  // ---------------------------------------------------------------------------
  // The cache only grows

  /** A route never removes or rewrites an entry that was in the cache when it began. */
  lemma {:induction false} RouteFileExtends(env: Env, path: Path, data: Bytes, cache: Cache, fuel: nat)
    requires RouteFile(env, path, data, cache, fuel).Some?
    ensures Extends(cache, RouteFile(env, path, data, cache, fuel).value.cache)
    decreases fuel, 1
  {
    if !Cached(env, data, cache) {
      ExtractExtends(env, KindOf(path), data, cache, fuel);
    }
  }

  lemma {:induction false} ExtractExtends(env: Env, kind: Kind, data: Bytes, cache: Cache, fuel: nat)
    requires Extract(env, kind, data, cache, fuel).Some?
    ensures Extends(cache, Extract(env, kind, data, cache, fuel).value.cache)
    decreases fuel, 0
  {
    if kind == Archive && env.unzip(data).Members? {
      var ms := env.unzip(data).members;
      var f := fuel - 1;
      assert Walk(env, ms, cache, f).Some?;
      WalkExtends(env, ms, cache, f);
    }
  }

  lemma {:induction false} WalkExtends(env: Env, ms: seq<Member>, cache: Cache, fuel: nat)
    requires Walk(env, ms, cache, fuel).Some?
    ensures Extends(cache, Walk(env, ms, cache, fuel).value.cache)
    decreases fuel, 2, |ms|
  {
    if ms != [] {
      RouteFileExtends(env, ms[0].name, ms[0].data, cache, fuel);
      var first := RouteFile(env, ms[0].name, ms[0].data, cache, fuel).value;
      WalkExtends(env, ms[1..], first.cache, fuel);
    }
  }

  lemma RoutePathExtends(env: Env, fs: FileSystem, path: Path, cache: Cache, fuel: nat)
    requires RoutePath(env, fs, path, cache, fuel).Some?
    ensures Extends(cache, RoutePath(env, fs, path, cache, fuel).value.cache)
  {
    if path in fs {
      RouteFileExtends(env, path, fs[path], cache, fuel);
    }
  }

  // ---------------------------------------------------------------------------
  // Fuel is only a bound

  lemma {:induction false} RouteFileFuel(env: Env, path: Path, data: Bytes, cache: Cache, fuel: nat, fuel': nat)
    requires fuel <= fuel' && RouteFile(env, path, data, cache, fuel).Some?
    ensures RouteFile(env, path, data, cache, fuel') == RouteFile(env, path, data, cache, fuel)
    decreases fuel, 1
  {
    if !Cached(env, data, cache) {
      ExtractFuel(env, KindOf(path), data, cache, fuel, fuel');
    }
  }

  lemma {:induction false} ExtractFuel(env: Env, kind: Kind, data: Bytes, cache: Cache, fuel: nat, fuel': nat)
    requires fuel <= fuel' && Extract(env, kind, data, cache, fuel).Some?
    ensures Extract(env, kind, data, cache, fuel') == Extract(env, kind, data, cache, fuel)
    decreases fuel, 0
  {
    if kind == Archive && env.unzip(data).Members? {
      var ms := env.unzip(data).members;
      var f, f' := fuel - 1, fuel' - 1;
      assert Walk(env, ms, cache, f).Some?;
      WalkFuel(env, ms, cache, f, f');
      assert Walk(env, ms, cache, f') == Walk(env, ms, cache, f);
    } else if kind == Archive {
      assert !env.unzip(data).Members?;
    } else {
      assert kind != Archive;
    }
  }

  lemma {:induction false} WalkFuel(env: Env, ms: seq<Member>, cache: Cache, fuel: nat, fuel': nat)
    requires fuel <= fuel' && Walk(env, ms, cache, fuel).Some?
    ensures Walk(env, ms, cache, fuel') == Walk(env, ms, cache, fuel)
    decreases fuel, 2, |ms|
  {
    if ms != [] {
      RouteFileFuel(env, ms[0].name, ms[0].data, cache, fuel, fuel');
      var first := RouteFile(env, ms[0].name, ms[0].data, cache, fuel).value;
      WalkFuel(env, ms[1..], first.cache, fuel, fuel');
    }
  }

  // ---------------------------------------------------------------------------
  // At most one extraction per digest

  /** The digests of the leaf extractions (document, PDF, image) in a log whose content
      hashed successfully; archive expansions are not leaves. */
  function LeafDigests(env: Env, log: seq<Extraction>): seq<Digest> {
    if log == [] then []
    else
      (if log[0].kind != Archive && env.digest(log[0].data).Some?
       then [env.digest(log[0].data).value] else [])
      + LeafDigests(env, log[1..])
  }

  predicate Distinct<T(==)>(s: seq<T>) {
    forall i, j :: 0 <= i < j < |s| ==> s[i] != s[j]
  }

  /** The leaf extractions of `log` each ran on a different digest, none of which was cached
      in `before`, and every one of which is cached in `after`. */
  predicate LeafOnce(env: Env, before: Cache, after: Cache, log: seq<Extraction>) {
    var ds := LeafDigests(env, log);
    && Distinct(ds)
    && (forall i :: 0 <= i < |ds| ==> ds[i] !in before && ds[i] in after)
  }

  lemma {:induction false} LeafDigestsAppend(env: Env, a: seq<Extraction>, b: seq<Extraction>)
    ensures LeafDigests(env, a + b) == LeafDigests(env, a) + LeafDigests(env, b)
    decreases |a|
  {
    if a == [] {
      assert a + b == b;
    } else {
      assert (a + b)[1..] == a[1..] + b;
      LeafDigestsAppend(env, a[1..], b);
    }
  }

  /** Running one step after another keeps the leaf extractions unique. */
  lemma LeafOnceCompose(env: Env, c0: Cache, c1: Cache, c2: Cache, l1: seq<Extraction>, l2: seq<Extraction>)
    requires c0.Keys <= c1.Keys && c1.Keys <= c2.Keys
    requires LeafOnce(env, c0, c1, l1) && LeafOnce(env, c1, c2, l2)
    ensures LeafOnce(env, c0, c2, l1 + l2)
  {
    LeafDigestsAppend(env, l1, l2);
    var d1, d2 := LeafDigests(env, l1), LeafDigests(env, l2);
    var ds := d1 + d2;
    forall i, j | 0 <= i < j < |ds| ensures ds[i] != ds[j] {
      if j >= |d1| && i < |d1| {
        assert ds[i] in c1 && ds[j] !in c1;
      }
    }
    forall i | 0 <= i < |ds| ensures ds[i] !in c0 && ds[i] in c2 {
      if i >= |d1| {
        assert ds[i] == d2[i - |d1|];
      }
    }
  }

  /** Within one route no backend runs twice on content of the same digest, and only on
      content whose digest was not cached when the route began. */
  lemma {:induction false} RouteFileLeafOnce(env: Env, path: Path, data: Bytes, cache: Cache, fuel: nat)
    requires RouteFile(env, path, data, cache, fuel).Some?
    ensures LeafOnce(env, cache, RouteFile(env, path, data, cache, fuel).value.cache,
                     RouteFile(env, path, data, cache, fuel).value.log)
    decreases fuel, 1
  {
    if !Cached(env, data, cache) && KindOf(path) == Archive && env.unzip(data).Members? {
      ArchiveStepLeafOnce(env, path, data, cache, fuel);
    } else {
      NonArchiveLeafOnce(env, path, data, cache, fuel);
    }
  }

  /** An archive that unpacks: the walk's leaf extractions are unique, hence so are the
      archive's. */
  lemma {:induction false} ArchiveStepLeafOnce(env: Env, path: Path, data: Bytes, cache: Cache, fuel: nat)
    requires !Cached(env, data, cache) && KindOf(path) == Archive && env.unzip(data).Members?
    requires RouteFile(env, path, data, cache, fuel).Some?
    ensures LeafOnce(env, cache, RouteFile(env, path, data, cache, fuel).value.cache,
                     RouteFile(env, path, data, cache, fuel).value.log)
    decreases fuel, 0
  {
    var ms, f, w := ArchiveWalks(env, path, data, cache, fuel);
    WalkLeafOnce(env, ms, cache, f);
    ArchiveLeafOnce(env, path, data, cache, fuel, ms, w);
  }

  /** An archive that unpacks and routes to some text had fuel to walk its members. */
  lemma ArchiveWalks(env: Env, path: Path, data: Bytes, cache: Cache, fuel: nat)
    returns (ms: seq<Member>, f: nat, w: Walked)
    requires !Cached(env, data, cache) && KindOf(path) == Archive && env.unzip(data).Members?
    requires RouteFile(env, path, data, cache, fuel).Some?
    ensures env.unzip(data) == Members(ms) && fuel > 0 && f == fuel - 1
    ensures Walk(env, ms, cache, f) == Some(w) && Walk(env, ms, cache, fuel - 1) == Some(w)
  {
    ms := env.unzip(data).members;
    assert Extract(env, Archive, data, cache, fuel).Some?;
    f := fuel - 1;
    assert Walk(env, ms, cache, f).Some?;
    w := Walk(env, ms, cache, f).value;
  }

  /** The same for a route by path: a missing file extracts nothing. */
  lemma RoutePathLeafOnce(env: Env, fs: FileSystem, path: Path, cache: Cache, fuel: nat)
    requires RoutePath(env, fs, path, cache, fuel).Some?
    ensures LeafOnce(env, cache, RoutePath(env, fs, path, cache, fuel).value.cache,
                     RoutePath(env, fs, path, cache, fuel).value.log)
  {
    if path in fs {
      RouteFileLeafOnce(env, path, fs[path], cache, fuel);
    } else {
      assert LeafDigests(env, []) == [];
    }
  }

  /** The step case for an archive that unpacks: its own expansion is not a leaf, so its
      leaf extractions are those of the walk. */
  lemma ArchiveLeafOnce(env: Env, path: Path, data: Bytes, cache: Cache, fuel: nat, ms: seq<Member>, w: Walked)
    requires !Cached(env, data, cache) && KindOf(path) == Archive && fuel > 0
    requires env.unzip(data) == Members(ms)
    requires Walk(env, ms, cache, fuel - 1) == Some(w)
    requires LeafOnce(env, cache, w.cache, w.log)
    ensures RouteFile(env, path, data, cache, fuel).Some?
    ensures LeafOnce(env, cache, RouteFile(env, path, data, cache, fuel).value.cache,
                     RouteFile(env, path, data, cache, fuel).value.log)
  {
    ArchiveText(env, path, data, cache, fuel, ms, w);
    var r := RouteFile(env, path, data, cache, fuel).value;
    assert w.cache.Keys <= r.cache.Keys;
    LeafDigestsAppend(env, [Extraction(Archive, data)], w.log);
    assert LeafDigests(env, [Extraction(Archive, data)]) == [];
    LeafOnceWiden(env, cache, w.cache, r.cache, w.log, r.log);
  }

  /** The base cases: a hit, an unsupported file, a leaf extractor, an archive that does not
      unpack. */
  lemma NonArchiveLeafOnce(env: Env, path: Path, data: Bytes, cache: Cache, fuel: nat)
    requires !(!Cached(env, data, cache) && KindOf(path) == Archive && env.unzip(data).Members?)
    requires RouteFile(env, path, data, cache, fuel).Some?
    ensures LeafOnce(env, cache, RouteFile(env, path, data, cache, fuel).value.cache,
                     RouteFile(env, path, data, cache, fuel).value.log)
  {
    var kind := KindOf(path);
    if Cached(env, data, cache) || kind == Unsupported {
      assert RouteFile(env, path, data, cache, fuel).value.log == [];
    } else if kind == Archive {
      UnopenedArchiveLog(env, path, data, cache, fuel);
    } else {
      LeafDispatch(env, path, data, cache, fuel);
      LeafOfOne(env, kind, data, cache, RouteFile(env, path, data, cache, fuel).value.cache,
                RouteFile(env, path, data, cache, fuel).value.log);
    }
  }

  /** An archive that does not unpack logs only its own expansion, which is not a leaf. */
  lemma UnopenedArchiveLog(env: Env, path: Path, data: Bytes, cache: Cache, fuel: nat)
    requires !Cached(env, data, cache) && KindOf(path) == Archive && !env.unzip(data).Members?
    requires RouteFile(env, path, data, cache, fuel).Some?
    ensures RouteFile(env, path, data, cache, fuel).value.log == [Extraction(Archive, data)]
    ensures LeafDigests(env, RouteFile(env, path, data, cache, fuel).value.log) == []
  {
    assert LeafDigests(env, [Extraction(Archive, data)]) == [];
  }

  /** The same leaf digests, checked against a cache with at least as many keys. */
  lemma LeafOnceWiden(env: Env, before: Cache, mid: Cache, after: Cache, log: seq<Extraction>, log': seq<Extraction>)
    requires LeafOnce(env, before, mid, log)
    requires mid.Keys <= after.Keys
    requires LeafDigests(env, log') == LeafDigests(env, log)
    ensures LeafOnce(env, before, after, log')
  {
  }

  /** A single leaf extraction of content that was not cached and is cached afterwards. */
  lemma LeafOfOne(env: Env, kind: Kind, data: Bytes, before: Cache, after: Cache, log: seq<Extraction>)
    requires kind != Archive && log == [Extraction(kind, data)]
    requires !Cached(env, data, before)
    requires env.digest(data).Some? ==> env.digest(data).value in after
    ensures LeafOnce(env, before, after, log)
  {
    assert log[1..] == [];
    assert LeafDigests(env, log)
        == (if env.digest(data).Some? then [env.digest(data).value] else []);
  }

  lemma {:induction false} WalkLeafOnce(env: Env, ms: seq<Member>, cache: Cache, fuel: nat)
    requires Walk(env, ms, cache, fuel).Some?
    ensures LeafOnce(env, cache, Walk(env, ms, cache, fuel).value.cache, Walk(env, ms, cache, fuel).value.log)
    decreases fuel, 2, |ms|
  {
    if ms != [] {
      RouteFileLeafOnce(env, ms[0].name, ms[0].data, cache, fuel);
      RouteFileExtends(env, ms[0].name, ms[0].data, cache, fuel);
      var first := RouteFile(env, ms[0].name, ms[0].data, cache, fuel).value;
      WalkLeafOnce(env, ms[1..], first.cache, fuel);
      WalkExtends(env, ms[1..], first.cache, fuel);
      var rest := Walk(env, ms[1..], first.cache, fuel).value;
      LeafOnceCompose(env, cache, first.cache, rest.cache, first.log, rest.log);
    }
  }
}
